=== FILE: README.md ===
# Credit-card fraud detector: verified model of the reply parsing, forms and page state

The repository holds two small React front ends that send one card transaction to a hosted
language model and show its verdict.

- **credit-card-fraud-detector** asks for a reply as three labelled lines
  (`Assessment:`, `Reason:`, optional `Confidence:`). It reads the verdict out of those lines,
  and falls back to searching the whole reply for the words "fraudulent" and "legitimate".
- **credit-card-fraud-detector-ai** asks for a JSON object. It trims the reply and removes a
  surrounding fenced code block. It then parses the JSON, checks the three fields' types and
  the confidence's range, and rewords whatever was thrown.

In both variants, a form validates the typed fields in a fixed order before submitting. A page
component holds four pieces of state: the transaction, the verdict, the loading flag and the
error. It changes them when a submission starts, when it settles, and (in the first variant)
when the form is cleared.

The Dafny modules follow the source files:

| module | models |
|---|---|
| `Wrappers` | `Option` and `Result` |
| `JsStrings` | the JavaScript string operations the code relies on: `trim` (ECMAScript white space and line terminators), `toLowerCase`, `startsWith`, `includes`, `split` on one character; the `\w` and `\s` classes of the fence regex |
| `JsValues` | thrown values (`Error` with a message, or anything else), JSON values, the outcome of the model call, truthiness of an optional string |
| `DetectorTypes`, `AiTypes` | the records of the two `types.ts` files |
| `DetectorService` | the labelled-line parser, the failure rewording, `detectFraud` after the request has settled |
| `AiService` | the key guard, fence stripping, the shape check, the rewording, `analyzeTransaction` after the request has settled |
| `DetectorForm`, `AiForm` | the two forms as classes whose methods update their fields |
| `DetectorApp`, `AiApp` | the two pages as classes, with their invariants and the panel conditions |

The labelled-line parser is a method. Like the source, it sets three locals to defaults and
overwrites them step by step. It is proved against three rule predicates (`FlagRule`,
`ReasonRule`, `ConfidenceRule`), which state the result outright.

The fence stripping is a pure function. The regex `/^```(\w*)?\s*\n?(.*?)\n?\s*```$/s` is
written out as follows:
- it matches exactly when the trimmed reply is at least six characters long and begins and ends
  with three backticks;
- group 2 is what lies between them, less the leading word characters (the greedy tag), less
  the leading white space, less the trailing white space (left by the lazy group).

`FenceContentOf` proves that reading against the regex's own decomposition into a fenced block.

The forms and pages are classes. Their fields are the component state, and their methods are
the handlers. Every handler keeps a class invariant `Valid()`. A submission is split at its
`await` into `BeginSubmit` and `CompleteSubmit`. `CompleteSubmit` requires a request in flight,
because the pages issue one request at a time: both forms disable submitting while loading, and
the Clear button is disabled too.

The outside world is passed in as parameters:
- `JSON.parse` is `jsonParse: string -> Result<Json, string>`, where `Failure` carries the
  syntax error's message;
- `parseFloat` is `string -> Option<real>` and `parseInt(·, 10)` is `string -> Option<int>`,
  where `None` stands for `NaN`;
- the model call's outcome is a `GatewayOutcome`, either the reply text or the thrown value;
- the environment's API key is an `Option<string>`;
- the clock's current hour is a constructor argument.

Two behaviours of the JSON variant's code are easy to miss; the model follows the code in both:
- **Empty fence content.** A fenced reply whose captured content is empty is passed on
  unchanged, backticks included, because of the truthiness test on line 53. For example,
  "```json```" captures nothing. See `TagOnlyFenceKept`.
- **Shape failures.** A reply that fails the shape check is not reported as a bare
  malformed-response error. The `catch` block re-wraps it, so callers see
  "AI API Error: Received malformed JSON response from AI model." See `MalformedObjectRejected`.

## Model

| member | source | states |
|---|---|---|
| DetectorService.FindLabeled | credit-card-fraud-detector/services/geminiService.ts:44 | the index found holds a line whose lower-cased text starts with the label, and no earlier line does; no index means no line does |
| DetectorService.ParseReply | credit-card-fraud-detector/services/geminiService.ts:39-81 | the verdict obeys the flag, reason and confidence rules, and a confidence present is in [0, 1] |
| DetectorService.VerdictUnique | credit-card-fraud-detector/services/geminiService.ts:39-81 | the three rules determine the verdict completely: two verdicts of the same reply are equal |
| DetectorService.FirstLabeledLine | credit-card-fraud-detector/services/geminiService.ts:44 | `find` returns the first labelled line, however many follow |
| DetectorService.FirstAssessmentDecides | credit-card-fraud-detector/services/geminiService.ts:44-50 | only the first assessment line decides the flag: it is true exactly when that line's trimmed, lower-cased value is "fraudulent" |
| DetectorService.IndentedLabelIgnored | credit-card-fraud-detector/services/geminiService.ts:44 | a line starting with white space never carries a label, since labels are matched on the raw line |
| DetectorService.FraudulentWinsFallback | credit-card-fraud-detector/services/geminiService.ts:68-70 | with no assessment line, a reply naming both words is flagged fraudulent and its reason is the whole reply |
| DetectorService.LegitimateFallback | credit-card-fraud-detector/services/geminiService.ts:71-73 | with no assessment line, a reply naming "legitimate" but not "fraudulent" is cleared and its reason is the whole reply |
| DetectorService.AssessmentLineOverridesFallback | credit-card-fraud-detector/services/geminiService.ts:44-55 | with an assessment line, the flag comes from that line and the reason from the first reason line or the default, whatever else the reply says |
| DetectorService.ThreeLines | credit-card-fraud-detector/services/geminiService.ts:39 | a reply in the requested format splits into exactly its three lines |
| DetectorService.ThreeLabels | credit-card-fraud-detector/services/geminiService.ts:44-57 | in such a reply each label is found on its own line |
| DetectorService.ThreeLineFlag | credit-card-fraud-detector/services/geminiService.ts:44-50 | the flag of a three-line reply is whether its verdict word is "fraudulent" in any letter case |
| DetectorService.ThreeLineReason | credit-card-fraud-detector/services/geminiService.ts:52-55 | the reason of a three-line reply is its reason sentence |
| DetectorService.ThreeLineConfidence | credit-card-fraud-detector/services/geminiService.ts:57-64 | the confidence of a three-line reply is its parsed number when that is in [0, 1], absent otherwise |
| DetectorService.ThreeLineReply | credit-card-fraud-detector/services/geminiService.ts:39-81 | a reply in the requested format yields the verdict, sentence and confidence written on its lines |
| DetectorService.TwoLines | credit-card-fraud-detector/services/geminiService.ts:39 | a reply of just the assessment and reason lines splits into exactly those two lines |
| DetectorService.TwoLabels | credit-card-fraud-detector/services/geminiService.ts:44-57 | in such a reply the assessment and reason labels are found on their lines and no confidence line is found |
| DetectorService.TwoLineConfidence | credit-card-fraud-detector/services/geminiService.ts:57-64 | a two-line reply has no confidence |
| DetectorService.TwoLineReply | credit-card-fraud-detector/services/geminiService.ts:39-81 | a reply without a confidence line yields the verdict and sentence written on its lines and no confidence |
| DetectorService.ClassifyFailure | credit-card-fraud-detector/services/geminiService.ts:83-89 | the invalid-key message exactly when an `Error`'s message contains "API key not valid"; the communication message otherwise |
| DetectorService.DetectFraud | credit-card-fraud-detector/services/geminiService.ts:30-89 | a failed request is re-thrown as its classified message; a reply always yields the verdict the rules define |
| AiService.FenceContent | credit-card-fraud-detector-ai/services/geminiService.ts:51-52 | the regex matches exactly when the text is at least six characters long and begins and ends with three backticks; group 2 is then at most six characters shorter and has no white space at either end |
| AiService.StripFence | credit-card-fraud-detector-ai/services/geminiService.ts:49-55 | the text handed to `JSON.parse` is never longer than the reply and has no white space at either end; a reply the regex does not match once trimmed (no opening or no closing backticks, or fewer than six characters) is only trimmed |
| AiService.FenceInside | credit-card-fraud-detector-ai/services/geminiService.ts:51-52 | a reply with backticks at both ends matches, and its group 2 is computed from what lies between them |
| AiService.FenceContentOf | credit-card-fraud-detector-ai/services/geminiService.ts:51-52 | for backticks, word-character tag, white space, content, white space and backticks, group 2 is exactly the content |
| AiService.TagThenContent | credit-card-fraud-detector-ai/services/geminiService.ts:51 | the tag, then the white space on either side, are taken off and the content is left |
| AiService.StripFencedReply | credit-card-fraud-detector-ai/services/geminiService.ts:49-55 | a reply that is one fenced block, padded with white space, becomes its content |
| AiService.UnfencedReplyOnlyTrimmed | credit-card-fraud-detector-ai/services/geminiService.ts:49-55 | a reply that does not open with three backticks once trimmed is only trimmed |
| AiService.TagOnlyFenceKept | credit-card-fraud-detector-ai/services/geminiService.ts:53-55 | a fence holding only a tag and white space captures nothing, so the reply is kept with its backticks |
| AiService.WrappedPayloadStripped | credit-card-fraud-detector-ai/services/geminiService.ts:49-55 | a payload wrapped in a ```json fence on its own lines is unwrapped to the payload |
| AiService.BarePayloadKept | credit-card-fraud-detector-ai/services/geminiService.ts:49-55 | a trimmed payload that does not start with a backtick is passed on unchanged |
| AiService.FencedContentKept | credit-card-fraud-detector-ai/services/geminiService.ts:53-54 | non-empty group 2 without white space at its ends is exactly what reaches `JSON.parse` |
| AiService.FencedPayloadSameOutcome | credit-card-fraud-detector-ai/services/geminiService.ts:49-78 | a payload yields the same result bare or wrapped in a ```json fence |
| AiService.CheckShape | credit-card-fraud-detector-ai/services/geminiService.ts:57-67 | accepted exactly when the object has a boolean flag, a number in [0, 1] and a string summary; the report is the parsed fields; `null` throws the property-access error, anything else is malformed |
| AiService.ReportRoundTrip | credit-card-fraud-detector-ai/services/geminiService.ts:57-67 | a report written as JSON is accepted exactly when its confidence is in [0, 1], and is then returned unchanged |
| AiService.TryBlock | credit-card-fraud-detector-ai/services/geminiService.ts:39-67 | what the request threw is passed to the `catch` unchanged; a value is returned exactly when the request replied, the unwrapped reply parses, and the parsed value has the right shape; the report holds only properties of the parsed object |
| AiService.Rewrap | credit-card-fraud-detector-ai/services/geminiService.ts:69-78 | an `Error` naming the invalid key becomes the invalid-key message, any other `Error` gets the "AI API Error: " prefix, a non-`Error` the unexpected-error message |
| AiService.AnalyzeTransaction | credit-card-fraud-detector-ai/services/geminiService.ts:13-80 | no key fails with the configuration message before any request; with a key, a thrown request and a reply that does not parse fail with the re-wrapped error, a well-shaped parse of the unwrapped reply succeeds, a success is that shape-checked parse with the confidence in [0, 1], and every failure is one of the three reworded forms |
| AiService.MalformedIsNotInvalidKey | credit-card-fraud-detector-ai/services/geminiService.ts:64-76 | the malformed-reply message does not contain the invalid-key phrase |
| AiService.MalformedObjectRejected | credit-card-fraud-detector-ai/services/geminiService.ts:57-76 | any non-null parsed value lacking a well-typed property (missing, of the wrong type, or a confidence out of range) reaches the caller as "AI API Error: Received malformed JSON response from AI model." |
| AiService.NullReplyRejected | credit-card-fraud-detector-ai/services/geminiService.ts:57-76 | with a key, a reply that parses to `null` fails on its first property read and reaches the caller as "AI API Error: " followed by that error's message |
| AiService.WellShapedAccepted | credit-card-fraud-detector-ai/services/geminiService.ts:57-67 | with a key, a reply whose unwrapped text parses to a report with confidence in [0, 1] returns that report unchanged |
| DetectorForm.TransactionForm.constructor | credit-card-fraud-detector/components/TransactionForm.tsx:15-22 | the form starts at its defaults with nothing submitted |
| DetectorForm.TransactionForm.HandleSubmit | credit-card-fraud-detector/components/TransactionForm.tsx:25-53 | amount, hour and score are checked in that order; the first failure is alerted with no submission; otherwise exactly one transaction of the parsed numbers and the typed category and flags is submitted and the form is marked submitted; every submission passes the checks; a Clear button on screen stays on screen |
| DetectorForm.TransactionForm.HandleClearForm | credit-card-fraud-detector/components/TransactionForm.tsx:55-64 | every field returns to its default and `onClear` is called once; afterwards the Clear button is hidden and submitting is disabled |
| DetectorForm.TransactionForm.SubmitEnabled | credit-card-fraud-detector/components/TransactionForm.tsx:176-190 | the submit button is enabled only when not loading and with an amount typed, and then the Clear button is shown as well |
| AiForm.HourText | credit-card-fraud-detector-ai/components/TransactionForm.tsx:23 | the initial hour text has one or two digits, no leading zero, and denotes the current hour |
| AiForm.TransactionForm.constructor | credit-card-fraud-detector-ai/components/TransactionForm.tsx:21-24 | the form starts with no amount, the first category, the current hour and no error |
| AiForm.TransactionForm.HandleSubmit | credit-card-fraud-detector-ai/components/TransactionForm.tsx:26-51 | the error is cleared, then amount, hour and category are checked in that order; the first failure sets its message with no submission; otherwise no error is shown and exactly one transaction is submitted; every submission passes the checks |
| AiForm.FirstSubmitKeepsCategory | credit-card-fraud-detector-ai/components/TransactionForm.tsx:21-51 | the first submission of a freshly opened form never fails the category check, whatever amount and hour are typed |
| DetectorApp.FailureText | credit-card-fraud-detector/App.tsx:38-42 | an `Error` is shown with the "Failed to get prediction: " prefix, anything else as the unknown-error text; never empty |
| DetectorApp.FraudDetectorPage.constructor | credit-card-fraud-detector/App.tsx:15-18 | the page starts with no transaction, no prediction, no error and not loading, and satisfies its invariant |
| DetectorApp.FraudDetectorPage.BeginSubmit | credit-card-fraud-detector/App.tsx:22-33 | without a key only the configuration error is shown and loading is off; with a key loading starts, error and prediction are cleared and the submitted transaction is stored |
| DetectorApp.FraudDetectorPage.CompleteSubmit | credit-card-fraud-detector/App.tsx:34-46 | a prediction is stored with no error, a failure shows its text with no prediction, and loading ends on every path |
| DetectorApp.FraudDetectorPage.Clear | credit-card-fraud-detector/App.tsx:49-54 | all four fields return to empty and not loading |
| DetectorApp.AtMostOneShown | credit-card-fraud-detector/App.tsx:82-84 | under the page invariant no two of spinner, error and prediction are on screen together |
| DetectorApp.NoKeyNoPrediction | credit-card-fraud-detector/App.tsx:23-27 | without a key the page never shows a spinner or a prediction |
| DetectorApp.ServiceFailureTexts | credit-card-fraud-detector/App.tsx:38-39 | a failed request shows one of exactly two texts, the reworded invalid-key or communication failure |
| AiApp.FailureText | credit-card-fraud-detector-ai/App.tsx:33-37 | an `Error` is shown between the "Failed to get fraud assessment: " prefix and the advice sentence, anything else as the unknown-error text; never empty |
| AiApp.FraudAnalysisPage.constructor | credit-card-fraud-detector-ai/App.tsx:11-14 | the page starts with no input, no report, no error and not loading, and satisfies its invariant |
| AiApp.FraudAnalysisPage.PanelShown | credit-card-fraud-detector-ai/App.tsx:63-76 | the results panel is rendered whenever the spinner or the error is |
| AiApp.FraudAnalysisPage.ResultShown | credit-card-fraud-detector-ai/App.tsx:77-79 | the report is shown only inside the panel and never beside the placeholder, the spinner or the error |
| AiApp.FraudAnalysisPage.PlaceholderShown | credit-card-fraud-detector-ai/App.tsx:80-84 | the placeholder is shown only inside the panel and never beside the spinner or the error |
| AiApp.FraudAnalysisPage.BeginSubmit | credit-card-fraud-detector-ai/App.tsx:18-26 | without a key only the error is set and nothing else changes; with a key loading starts, error and report are cleared and the submitted input is stored |
| AiApp.FraudAnalysisPage.CompleteSubmit | credit-card-fraud-detector-ai/App.tsx:28-40 | a report is stored with no error, a failure shows its text and the report stays empty, and loading ends on every path |
| AiApp.FraudAnalysisPage.SubmitForm | credit-card-fraud-detector-ai/App.tsx:59 | submitting through a form whose button is enabled (not loading, key set) starts a request exactly when the form hands on a transaction, and that request is for the transaction it handed on; otherwise the page is unchanged; the typed fields are left as they were, the form's error is cleared when a request starts and is one of its three messages otherwise |
| AiApp.ResultOrPlaceholder | credit-card-fraud-detector-ai/App.tsx:77-80 | the report and the placeholder are never on screen together |
| AiApp.ExactlyOneInPanel | credit-card-fraud-detector-ai/App.tsx:63-84 | under the page invariant the panel is rendered exactly when one of spinner, error, report and placeholder is, and then holds exactly one of them |
| AiApp.ReportShownAfterSuccess | credit-card-fraud-detector-ai/App.tsx:77-79 | a settled request with a report shows that report and nothing else |
| AiApp.ServiceKeyGuardUnreachable | credit-card-fraud-detector-ai/App.tsx:19-22 | with a key, the service's own missing-key error can never come back to the page |
| JsStrings.Trim | credit-card-fraud-detector-ai/services/geminiService.ts:49 | `trim` leaves no white space at either end and never lengthens the string |
| JsStrings.TrimDecomposes | credit-card-fraud-detector-ai/services/geminiService.ts:49 | the text is its trimmed form with only white space before and after it |
| JsStrings.TrimPadded | credit-card-fraud-detector-ai/services/geminiService.ts:49 | trimming white space around a trimmed string gives that string back |
| JsStrings.TrimIdempotent | credit-card-fraud-detector-ai/services/geminiService.ts:54 | trimming twice is trimming once |
| JsStrings.Includes | credit-card-fraud-detector/services/geminiService.ts:68 | `includes` is true exactly when the text occurs at some position |
| JsStrings.Split | credit-card-fraud-detector/services/geminiService.ts:39 | `split` gives at least one piece and no piece contains the separator |
| JsStrings.JoinSplit | credit-card-fraud-detector/services/geminiService.ts:39 | joining the pieces of a split with the separator restores the text |
| JsStrings.SplitJoin | credit-card-fraud-detector/services/geminiService.ts:39 | splitting pieces joined by a separator they do not contain restores the pieces |
| JsStrings.ToLower | credit-card-fraud-detector/services/geminiService.ts:44-46 | lower-casing keeps the length and maps each character on its own |

## Left out

- The model call itself is not modelled: the `GoogleGenAI` client, the prompt text with its `toFixed(2)` formatting, and the request options. Its outcome is an input.
- In the JSON variant, a missing `response.text` (which would throw on `.trim()`) is not modelled; the reply is always a string.
- In the labelled-line variant, a missing `response.text` is not modelled either.
- The `new GoogleGenAI` call that precedes the `try` block in the labelled-line variant is not modelled.
- The module-level key read and its console warning are not modelled: the key is a constructor argument and a parameter.
- `JSON.parse`, `parseFloat` and `parseInt` are not modelled: they are parameters, so only what the code does with their results is modelled.
- `JsStrings.ToLower` maps only the ASCII capitals A-Z. JavaScript's full Unicode case mapping, which can change a string's length, is not modelled.
- AiService.CheckShape: the report is the three checked fields. Extra properties of the parsed object, which the source passes on untouched, are dropped.
- AiService.CheckShape: reading a property of a `null` reply throws the engine's `TypeError`; the model fixes the V8 wording (`NullAccessMessage`), and other engines word that message differently.
- JSON numbers are mathematical reals, so floating-point rounding of the confidence is not modelled.
- Console logging in the `catch` blocks is not modelled.
- Interleaved or stale requests are not modelled. Each submission is a begin step followed by its own complete step.
- The alerts and `onSubmit`/`onClear` calls are recorded as logs on the form (`alerts`, `submissions`, `clears`) rather than performed.
- `MERCHANT_CATEGORIES` lives in `constants.ts`, which is not part of this model. The first category is a constructor argument of `DetectorForm.TransactionForm`.
- The input fields' change handlers are plain field assignments and are not modelled as methods.
- The presentational components are not modelled: the result cards with their confidence percentage, the dashboards, the navigation bar, the footer, the spinner and the error box.
- The Python scripts under `creditCardFraudDetection/` are not modelled. They are separate Streamlit and Flask predictors built on pickled classifiers, outside the two TypeScript apps.

=== FILE: ai_app.dfy ===
/**
 * credit-card-fraud-detector-ai/App.tsx: the four pieces of page state, the submit handler
 * that changes them, and which parts of the results panel are on screen. Submitting is split
 * at its `await`: `BeginSubmit` runs up to the request and `CompleteSubmit` runs the
 * `try`/`catch`/`finally` once the request has settled. The key is read once from the
 * environment, so it is a constant of the page.
 */
module AiApp {
  import opened Wrappers
  import opened JsStrings
  import opened JsValues
  import opened AiTypes
  import AiService
  import AiForm

  const NoKeyMessage: string := "API Key is not configured. Please set the API_KEY environment variable."
  const FailurePrefix: string := "Failed to get fraud assessment: "
  const FailureAdvice: string := ". Ensure your API key is valid and has access to the Gemini API."
  const UnknownFailureMessage: string := "An unknown error occurred while analyzing the transaction."

  /** Lines 33-37: the error shown for what `analyzeTransaction` threw. */
  function FailureText(t: Thrown): (text: string)
    ensures text != ""
    ensures t.ErrorThrown? ==> text == FailurePrefix + t.message + FailureAdvice
    ensures t.OtherThrown? ==> text == UnknownFailureMessage
  {
    match t
    case ErrorThrown(m) => FailurePrefix + m + FailureAdvice
    case OtherThrown => UnknownFailureMessage
  }

  class FraudAnalysisPage {
    /** `process.env.API_KEY`. */
    const apiKey: Option<string>
    var transactionInput: Option<TransactionInput>
    var fraudReport: Option<FraudReport>
    var isLoading: bool
    var error: Option<string>

    /**
     * What the handler keeps: a request in flight has a key and an input and shows neither an
     * error nor a report; an error and a report never stand together; a report belongs to an
     * input; without a key nothing was ever submitted; an error shown is never empty.
     */
    predicate Valid()
      reads this
    {
      (isLoading ==> Truthy(apiKey) && transactionInput.Some? && error.None? && fraudReport.None?) &&
      !(error.Some? && fraudReport.Some?) &&
      (fraudReport.Some? ==> transactionInput.Some?) &&
      (!Truthy(apiKey) ==> transactionInput.None? && fraudReport.None?) &&
      (error.Some? ==> error.value != "")
    }

    /** Line 63: the results panel is rendered when any of the four is set; spinner and error live inside it. */
    predicate PanelShown()
      reads this
      ensures SpinnerShown() || ErrorShown() ==> PanelShown()
    {
      isLoading || fraudReport.Some? || Truthy(error) || transactionInput.Some?
    }

    /** Line 65: the spinner. */
    predicate SpinnerShown()
      reads this
    {
      isLoading
    }

    /** Line 71: the error box. */
    predicate ErrorShown()
      reads this
    {
      Truthy(error)
    }

    /** Line 77: the report, for a settled request without an error; never beside the placeholder. */
    predicate ResultShown()
      reads this
      ensures ResultShown() ==> PanelShown() && !PlaceholderShown() && !SpinnerShown() && !ErrorShown()
    {
      fraudReport.Some? && transactionInput.Some? && !isLoading && !Truthy(error)
    }

    /** Line 80: the placeholder text, when an input is known but there is nothing else to show. */
    predicate PlaceholderShown()
      reads this
      ensures PlaceholderShown() ==> PanelShown() && !SpinnerShown() && !ErrorShown()
    {
      !isLoading && fraudReport.None? && !Truthy(error) && transactionInput.Some?
    }

    /** Lines 11-14: nothing submitted, nothing loading, no error. */
    constructor (apiKey: Option<string>)
      ensures this.apiKey == apiKey
      ensures transactionInput == None && fraudReport == None && !isLoading && error == None
      ensures Valid()
    {
      this.apiKey := apiKey;
      transactionInput := None;
      fraudReport := None;
      isLoading := false;
      error := None;
    }

    /**
     * Lines 18-26, up to the request. Without a key only the configuration error is set and
     * nothing else changes (loading is not touched); no request is made. With a key the page
     * starts loading, clears the error and the report, and stores the submitted input.
     */
    method BeginSubmit(data: TransactionInput) returns (started: bool)
      requires Valid()
      modifies this
      ensures Valid()
      ensures started <==> Truthy(apiKey)
      ensures !started ==>
                error == Some(NoKeyMessage) && isLoading == old(isLoading) &&
                transactionInput == old(transactionInput) && fraudReport == old(fraudReport)
      ensures started ==>
                isLoading && error == None && fraudReport == None && transactionInput == Some(data)
    {
      if !Truthy(apiKey) {
        error := Some(NoKeyMessage);
        return false;
      }
      isLoading := true;
      error := None;
      fraudReport := None;
      transactionInput := Some(data);
      return true;
    }

    /**
     * Lines 28-40, once `analyzeTransaction` has settled. A report is stored with no error; a
     * failure shows its error and the report stays empty. Loading ends on every path and the
     * input is kept.
     */
    method CompleteSubmit(outcome: Result<FraudReport, Thrown>)
      requires Valid() && isLoading
      modifies this
      ensures Valid()
      ensures !isLoading && transactionInput == old(transactionInput)
      ensures outcome.Success? ==> fraudReport == Some(outcome.value) && error == None
      ensures outcome.Failure? ==> fraudReport == None && error == Some(FailureText(outcome.error))
    {
      match outcome {
        case Success(report) =>
          fraudReport := Some(report);
        case Failure(err) =>
          error := Some(FailureText(err));
      }
      isLoading := false;
    }

    /**
     * Line 59: the form's `onSubmit` is this page's handler. Submitting through an enabled form
     * either leaves the page as it was while the form shows one of its three errors, or clears
     * the form's error and starts a request for exactly the transaction the form produced. The
     * typed fields are left as they were.
     */
    method SubmitForm(form: AiForm.TransactionForm, parseFloat: string -> Option<real>,
                      parseInt: string -> Option<int>) returns (started: bool)
      requires Valid() && form.Valid()
      requires AiForm.SubmitEnabled(isLoading, Truthy(apiKey))
      modifies this, form
      ensures Valid() && form.Valid()
      ensures form.amount == old(form.amount) && form.merchantCategory == old(form.merchantCategory) &&
              form.hourOfDay == old(form.hourOfDay)
      ensures started <==> |form.submissions| == |old(form.submissions)| + 1
      ensures started ==> form.formError == None
      ensures !started ==>
                form.formError in {Some(AiForm.AmountError), Some(AiForm.HourError), Some(AiForm.CategoryError)}
      ensures started ==>
                isLoading && error == None && fraudReport == None &&
                transactionInput == Some(form.submissions[|form.submissions| - 1])
      ensures !started ==>
                form.submissions == old(form.submissions) &&
                transactionInput == old(transactionInput) && fraudReport == old(fraudReport) &&
                isLoading == old(isLoading) && error == old(error)
    {
      var submittedBefore := |form.submissions|;
      form.HandleSubmit(parseFloat, parseInt);
      if |form.submissions| > submittedBefore {
        started := BeginSubmit(form.submissions[|form.submissions| - 1]);
      } else {
        started := false;
      }
    }
  }

  /** Lines 77 and 80: the report and the placeholder are never on screen together. */
  lemma ResultOrPlaceholder(page: FraudAnalysisPage)
    ensures !(page.ResultShown() && page.PlaceholderShown())
  {
  }

  /**
   * Lines 63-84: under the page's invariant a rendered panel holds exactly one of spinner,
   * error, report and placeholder, and a panel is rendered whenever one of them is.
   */
  lemma ExactlyOneInPanel(page: FraudAnalysisPage)
    requires page.Valid()
    ensures page.PanelShown() <==>
              page.SpinnerShown() || page.ErrorShown() || page.ResultShown() || page.PlaceholderShown()
    ensures page.SpinnerShown() ==> !page.ErrorShown() && !page.ResultShown() && !page.PlaceholderShown()
    ensures page.ErrorShown() ==> !page.SpinnerShown() && !page.ResultShown() && !page.PlaceholderShown()
    ensures page.ResultShown() ==> !page.SpinnerShown() && !page.ErrorShown() && !page.PlaceholderShown()
    ensures page.PlaceholderShown() ==> !page.SpinnerShown() && !page.ErrorShown() && !page.ResultShown()
  {
  }

  /** A settled successful request puts its report on screen, and nothing else. */
  lemma ReportShownAfterSuccess(page: FraudAnalysisPage)
    requires page.Valid() && !page.isLoading && page.fraudReport.Some?
    ensures page.ResultShown() && !page.PlaceholderShown() && !page.ErrorShown()
  {
  }

  /**
   * The page checks the key before calling `analyzeTransaction`, so the service's own
   * missing-key error never reaches the page.
   */
  lemma ServiceKeyGuardUnreachable(apiKey: Option<string>, outcome: GatewayOutcome,
                                   jsonParse: string -> Result<Json, string>)
    requires Truthy(apiKey)
    ensures AiService.AnalyzeTransaction(apiKey, outcome, jsonParse) != Failure(AiService.MissingKeyMessage)
  {
    var m := AiService.MissingKeyMessage;
    assert m[0] == 'G';
    assert m != AiService.InvalidKeyMessage && m != AiService.UnexpectedMessage;
    assert !StartsWith(m, AiService.ApiErrorPrefix);
  }
}

=== FILE: ai_form.dfy ===
/**
 * credit-card-fraud-detector-ai/components/TransactionForm.tsx: the form's state, its submit
 * handler (the error cleared, three checks in order, the first failure shown, otherwise one
 * `onSubmit` call) and when it can be submitted. The rendering is outside the model;
 * `parseFloat` and `parseInt(·, 10)` are parameters whose `None` stands for `NaN`, and the
 * clock's current hour is a constructor argument.
 */
module AiForm {
  import opened Wrappers
  import opened AiTypes

  /** Lines 14-18: the categories offered, in the order the drop-down lists them. */
  const MerchantCategories: seq<string> := [
    "Groceries", "Electronics", "Clothing", "Restaurants", "Travel",
    "Utilities", "Healthcare", "Entertainment", "Online Subscription",
    "Financial Services", "Automotive", "Home Improvement", "Other"]

  const AmountError: string := "Please enter a valid positive amount."
  const HourError: string := "Please enter a valid hour (0-23)."
  const CategoryError: string := "Please select a merchant category."

  /** The decimal digit for `d`. */
  function Digit(d: int): char
    requires 0 <= d <= 9
  {
    ['0', '1', '2', '3', '4', '5', '6', '7', '8', '9'][d]
  }

  /** The value of a decimal digit character, if it is one. */
  function DigitValue(c: char): Option<int> {
    if '0' <= c <= '9' then Some(c as int - '0' as int) else None
  }

  /** The number a string of decimal digits denotes, if it is one (the empty string is not). */
  function DecimalValue(s: string): Option<int>
    decreases |s|
  {
    if s == [] then None
    else
      match DigitValue(s[|s| - 1])
      case None => None
      case Some(d) =>
        if |s| == 1 then Some(d)
        else
          match DecimalValue(s[..|s| - 1])
          case None => None
          case Some(v) => Some(10 * v + d)
  }

  /**
   * `hour.toString()` for an hour of the day: one digit below ten, two from ten on. The text
   * has no leading zero and denotes the hour it was made from.
   */
  function HourText(hour: int): (r: string)
    requires 0 <= hour <= 23
    ensures 1 <= |r| <= 2 && (|r| == 2 ==> r[0] != '0')
    ensures DecimalValue(r) == Some(hour)
  {
    if hour < 10 then
      assert DigitValue(Digit(hour)) == Some(hour);
      [Digit(hour)]
    else
      var r := [Digit(hour / 10), Digit(hour % 10)];
      assert r[..1] == [Digit(hour / 10)];
      assert DigitValue(Digit(hour / 10)) == Some(hour / 10);
      assert DigitValue(Digit(hour % 10)) == Some(hour % 10);
      r
  }

  /** What the form lets through to the parent. */
  predicate Admissible(t: TransactionInput) {
    t.amount > 0.0 && 0 <= t.hourOfDay <= 23 && t.merchantCategory != ""
  }

  /** Lines 122 and 131: the inputs and the submit button are disabled while loading or without a key. */
  predicate SubmitEnabled(isLoading: bool, isApiKeySet: bool)
  {
    !(isLoading || !isApiKeySet)
  }

  class TransactionForm {
    var amount: string
    var merchantCategory: string
    var hourOfDay: string
    var formError: Option<string>
    /** Every transaction passed to `onSubmit`, oldest first. */
    var submissions: seq<TransactionInput>

    /** Every transaction the form handed to its parent passed the three checks. */
    predicate Valid()
      reads this
    {
      forall i :: 0 <= i < |submissions| ==> Admissible(submissions[i])
    }

    /** Lines 21-24: no amount, the first category, the current hour as text, no error. */
    constructor (currentHour: int)
      requires 0 <= currentHour <= 23
      ensures amount == "" && merchantCategory == MerchantCategories[0]
      ensures hourOfDay == HourText(currentHour) && formError == None
      ensures submissions == []
      ensures Valid()
    {
      amount := "";
      merchantCategory := MerchantCategories[0];
      hourOfDay := HourText(currentHour);
      formError := None;
      submissions := [];
    }

    /**
     * Lines 26-51. The error shown is cleared first; then the amount, the hour and the category
     * are checked in that order, and the first that fails sets its message with nothing
     * submitted. When all pass, no error is shown and the parent receives the parsed amount
     * and hour with the category as chosen, exactly once.
     */
    method HandleSubmit(parseFloat: string -> Option<real>, parseInt: string -> Option<int>)
      requires Valid()
      modifies this
      ensures Valid()
      ensures amount == old(amount) && merchantCategory == old(merchantCategory) && hourOfDay == old(hourOfDay)
      ensures parseFloat(amount).None? || parseFloat(amount).value <= 0.0 ==>
                formError == Some(AmountError) && submissions == old(submissions)
      ensures parseFloat(amount).Some? && parseFloat(amount).value > 0.0 &&
              (parseInt(hourOfDay).None? || !(0 <= parseInt(hourOfDay).value <= 23)) ==>
                formError == Some(HourError) && submissions == old(submissions)
      ensures parseFloat(amount).Some? && parseFloat(amount).value > 0.0 &&
              parseInt(hourOfDay).Some? && 0 <= parseInt(hourOfDay).value <= 23 && merchantCategory == "" ==>
                formError == Some(CategoryError) && submissions == old(submissions)
      ensures parseFloat(amount).Some? && parseFloat(amount).value > 0.0 &&
              parseInt(hourOfDay).Some? && 0 <= parseInt(hourOfDay).value <= 23 && merchantCategory != "" ==>
                formError == None &&
                submissions == old(submissions) + [TransactionInput(
                  parseFloat(amount).value, merchantCategory, parseInt(hourOfDay).value)]
    {
      formError := None;

      var parsedAmount := parseFloat(amount);
      var parsedHour := parseInt(hourOfDay);

      if parsedAmount.None? || parsedAmount.value <= 0.0 {
        formError := Some(AmountError);
        return;
      }
      if parsedHour.None? || parsedHour.value < 0 || parsedHour.value > 23 {
        formError := Some(HourError);
        return;
      }
      if merchantCategory == "" {
        formError := Some(CategoryError);
        return;
      }

      submissions := submissions + [TransactionInput(parsedAmount.value, merchantCategory, parsedHour.value)];
    }
  }

  /**
   * A freshly opened form starts on a real category, so its first submission never fails the
   * category check, whatever is typed as amount and hour.
   */
  method FirstSubmitKeepsCategory(currentHour: int, parseFloat: string -> Option<real>,
                                  parseInt: string -> Option<int>) returns (formError: Option<string>)
    requires 0 <= currentHour <= 23
    ensures formError != Some(CategoryError)
  {
    var form := new TransactionForm(currentHour);
    form.HandleSubmit(parseFloat, parseInt);
    formError := form.formError;
  }
}

=== FILE: ai_service.dfy ===
/**
 * credit-card-fraud-detector-ai/services/geminiService.ts: `analyzeTransaction` after the
 * request has settled. The key guard, unwrapping a fenced reply, checking the shape of the
 * parsed JSON, and rewording whatever was thrown. The prompt and the request are outside the
 * model; `JSON.parse` is the parameter `jsonParse`, whose `Failure` carries the syntax error's message.
 */
module AiService {
  import opened Wrappers
  import opened JsStrings
  import opened JsValues
  import opened AiTypes

  const Fence: string := "```"
  const MissingKeyMessage: string := "Gemini API Key is not configured."
  const MalformedMessage: string := "Received malformed JSON response from AI model."
  const InvalidKeyMarker: string := "API key not valid"
  const InvalidKeyMessage: string := "Invalid Gemini API Key. Please check your configuration."
  const ApiErrorPrefix: string := "AI API Error: "
  const UnexpectedMessage: string := "An unexpected error occurred while communicating with the AI model."
  /**
   * What V8 throws for `parsedData.isFraudulent` when the reply parsed to `null`. The wording is
   * the engine's, not the program's: other engines word this `TypeError` differently.
   */
  const NullAccessMessage: string := "Cannot read properties " + "of null (reading 'isFraudulent')"

  /**
   * Group 2 of /^```(\w*)?\s*\n?(.*?)\n?\s*```$/s when the regex matches `s`. It matches exactly
   * when `s` opens and closes with three backticks that do not overlap; the greedy tag and
   * white space are taken off the front and the lazy group leaves the trailing white space.
   */
  function FenceContent(s: string): (r: Option<string>)
    ensures r.Some? <==> |s| >= 6 && StartsWith(s, Fence) && s[|s| - 3..] == Fence
    ensures r.Some? ==> |r.value| <= |s| - 6 && EdgeTrimmed(r.value)
  {
    if |s| >= 6 && s[..3] == Fence && s[|s| - 3..] == Fence then
      Some(TrimEnd(TrimStart(DropWhile(s[3..|s| - 3], IsWordChar))))
    else
      None
  }

  /** Lines 49-55: the trimmed reply, replaced by the trimmed fence content when there is some. */
  function StripFence(reply: string): (r: string)
    ensures |r| <= |reply| && EdgeTrimmed(r)
    ensures !StartsWith(Trim(reply), Fence) ==> r == Trim(reply)
    ensures FenceContent(Trim(reply)).None? ==> r == Trim(reply)
  {
    var jsonStr := Trim(reply);
    match FenceContent(jsonStr)
    case Some(inner) => if inner != "" then Trim(inner) else jsonStr
    case None => jsonStr
  }

  /** The three properties of a well-formed report, with the confidence in [0, 1]. */
  predicate WellShaped(v: Json) {
    v.JObject? &&
    "isFraudulent" in v.fields && v.fields["isFraudulent"].JBool? &&
    "confidenceScore" in v.fields && v.fields["confidenceScore"].JNumber? &&
    0.0 <= v.fields["confidenceScore"].n <= 1.0 &&
    "assessmentSummary" in v.fields && v.fields["assessmentSummary"].JString?
  }

  /** The JSON object a report is written as. */
  function ReportJson(report: FraudReport): Json {
    JObject(map[
      "isFraudulent" := JBool(report.isFraudulent),
      "confidenceScore" := JNumber(report.confidenceScore),
      "assessmentSummary" := JString(report.assessmentSummary)])
  }

  /**
   * Lines 57-67: the shape check on the parsed value. Reading a property of `null` throws;
   * any other value without the three well-typed properties is rejected as malformed.
   */
  function CheckShape(v: Json): (r: Result<FraudReport, Thrown>)
    ensures r.Success? <==> WellShaped(v)
    ensures r.Success? ==> 0.0 <= r.value.confidenceScore <= 1.0
    ensures r.Success? ==> forall key :: key in ReportJson(r.value).fields ==>
              key in v.fields && v.fields[key] == ReportJson(r.value).fields[key]
    ensures r.Failure? ==> r.error == ErrorThrown(if v.JNull? then NullAccessMessage else MalformedMessage)
  {
    if v.JNull? then
      Failure(ErrorThrown(NullAccessMessage))
    else if WellShaped(v) then
      Success(FraudReport(v.fields["isFraudulent"].b, v.fields["confidenceScore"].n,
                          v.fields["assessmentSummary"].s))
    else
      Failure(ErrorThrown(MalformedMessage))
  }

  /** The body of the `try` block, once the request has settled. */
  function TryBlock(outcome: GatewayOutcome, jsonParse: string -> Result<Json, string>): (r: Result<FraudReport, Thrown>)
    ensures outcome.Threw? ==> r == Failure(outcome.thrown)
    ensures r.Success? <==>
              outcome.Replied? && jsonParse(StripFence(outcome.text)).Success? &&
              WellShaped(jsonParse(StripFence(outcome.text)).value)
    ensures r.Success? ==> ReportJson(r.value).fields.Keys <= jsonParse(StripFence(outcome.text)).value.fields.Keys
  {
    match outcome
    case Threw(t) => Failure(t)
    case Replied(text) =>
      match jsonParse(StripFence(text))
      case Failure(syntaxMessage) => Failure(ErrorThrown(syntaxMessage))
      case Success(v) => CheckShape(v)
  }

  /** The `catch` block: an `Error` is reworded by its message, anything else is unexpected. */
  function Rewrap(t: Thrown): (message: string)
    ensures t.OtherThrown? ==> message == UnexpectedMessage
    ensures t.ErrorThrown? && Includes(t.message, InvalidKeyMarker) ==> message == InvalidKeyMessage
    ensures t.ErrorThrown? && !Includes(t.message, InvalidKeyMarker) ==> message == ApiErrorPrefix + t.message
  {
    match t
    case ErrorThrown(m) => if Includes(m, InvalidKeyMarker) then InvalidKeyMessage else ApiErrorPrefix + m
    case OtherThrown => UnexpectedMessage
  }

  /** `analyzeTransaction`: the key guard outside the `try`, then the `try` block and its `catch`. */
  function AnalyzeTransaction(apiKey: Option<string>, outcome: GatewayOutcome,
                              jsonParse: string -> Result<Json, string>): (r: Result<FraudReport, string>)
    ensures !Truthy(apiKey) ==> r == Failure(MissingKeyMessage)
    ensures r.Success? ==>
              outcome.Replied? && jsonParse(StripFence(outcome.text)).Success? &&
              CheckShape(jsonParse(StripFence(outcome.text)).value) == Success(r.value)
    ensures r.Success? ==> 0.0 <= r.value.confidenceScore <= 1.0
    ensures Truthy(apiKey) && r.Failure? ==>
              r.error == InvalidKeyMessage || r.error == UnexpectedMessage || StartsWith(r.error, ApiErrorPrefix)
    ensures Truthy(apiKey) && outcome.Threw? ==> r == Failure(Rewrap(outcome.thrown))
    ensures Truthy(apiKey) && outcome.Replied? && jsonParse(StripFence(outcome.text)).Failure? ==>
              r == Failure(Rewrap(ErrorThrown(jsonParse(StripFence(outcome.text)).error)))
    ensures (Truthy(apiKey) && outcome.Replied? && jsonParse(StripFence(outcome.text)).Success? &&
             WellShaped(jsonParse(StripFence(outcome.text)).value)) ==> r.Success?
  {
    if !Truthy(apiKey) then
      Failure(MissingKeyMessage)
    else
      match TryBlock(outcome, jsonParse)
      case Success(report) => Success(report)
      case Failure(t) => Failure(Rewrap(t))
  }

  /** Writing a report as JSON and checking it gives the report back, exactly when its confidence is in range. */
  lemma ReportRoundTrip(report: FraudReport)
    ensures CheckShape(ReportJson(report)).Success? <==> 0.0 <= report.confidenceScore <= 1.0
    ensures 0.0 <= report.confidenceScore <= 1.0 ==> CheckShape(ReportJson(report)) == Success(report)
  {
  }

  /**
   * A parsed value that is not `null` and lacks one of the three well-typed properties (missing,
   * of the wrong type, or a confidence out of range) reaches the caller as a malformed-reply error.
   */
  lemma MalformedObjectRejected(apiKey: Option<string>, text: string,
                                jsonParse: string -> Result<Json, string>, v: Json)
    requires Truthy(apiKey)
    requires jsonParse(StripFence(text)) == Success(v)
    requires !v.JNull? && !WellShaped(v)
    ensures AnalyzeTransaction(apiKey, Replied(text), jsonParse) == Failure(ApiErrorPrefix + MalformedMessage)
  {
    MalformedIsNotInvalidKey();
  }

  /** A well-shaped reply is accepted end to end, as exactly the report its three properties spell. */
  lemma WellShapedAccepted(apiKey: Option<string>, text: string,
                           jsonParse: string -> Result<Json, string>, report: FraudReport)
    requires Truthy(apiKey)
    requires jsonParse(StripFence(text)) == Success(ReportJson(report))
    requires 0.0 <= report.confidenceScore <= 1.0
    ensures AnalyzeTransaction(apiKey, Replied(text), jsonParse) == Success(report)
  {
    ReportRoundTrip(report);
  }

  /**
   * A reply that parses to `null` fails on its first property read (line 60), and the `catch`
   * passes that error's message on behind the "AI API Error: " prefix.
   */
  lemma NullReplyRejected(apiKey: Option<string>, text: string, jsonParse: string -> Result<Json, string>)
    requires Truthy(apiKey)
    requires jsonParse(StripFence(text)) == Success(JNull)
    ensures AnalyzeTransaction(apiKey, Replied(text), jsonParse) == Failure(ApiErrorPrefix + NullAccessMessage)
  {
    NullAccessHasNoCapitalP();
    WithoutCapitalPNoMarker(NullAccessMessage);
  }

  /** The property-access message has no capital `P`, so it cannot name the invalid key. */
  lemma NullAccessHasNoCapitalP()
    ensures forall j :: 0 <= j < |NullAccessMessage| ==> NullAccessMessage[j] != 'P'
  {
    var a, b := "Cannot read properties ", "of null (reading 'isFraudulent')";
    assert forall j :: 0 <= j < |a| ==> a[j] != 'P' by { forall j | 0 <= j < |a| ensures a[j] != 'P' { } }
    assert forall j :: 0 <= j < |b| ==> b[j] != 'P' by { forall j | 0 <= j < |b| ensures b[j] != 'P' { } }
    LacksInConcat(a, b, 'P');
  }

  /** A character absent from two strings is absent from their concatenation. */
  lemma LacksInConcat(x: string, y: string, ch: char)
    requires forall j :: 0 <= j < |x| ==> x[j] != ch
    requires forall j :: 0 <= j < |y| ==> y[j] != ch
    ensures forall j :: 0 <= j < |x + y| ==> (x + y)[j] != ch
  {
  }

  /** A text without a capital `P` cannot contain the invalid-key phrase. */
  lemma WithoutCapitalPNoMarker(s: string)
    requires forall j :: 0 <= j < |s| ==> s[j] != 'P'
    ensures !Includes(s, InvalidKeyMarker)
  {
    assert InvalidKeyMarker[1] == 'P';
    NotIncludedWithout(s, InvalidKeyMarker, 1);
  }

  /** The malformed-reply message does not mention the invalid-key phrase (it has no `P`). */
  lemma MalformedIsNotInvalidKey()
    ensures !Includes(MalformedMessage, InvalidKeyMarker)
  {
    assert forall j :: 0 <= j < |MalformedMessage| ==> MalformedMessage[j] != 'P' by {
      var a, b, c := "Received malformed ", "JSON response ", "from AI model.";
      assert MalformedMessage == a + b + c;
      assert forall j :: 0 <= j < |a| ==> a[j] != 'P' by { forall j | 0 <= j < |a| ensures a[j] != 'P' { } }
      assert forall j :: 0 <= j < |b| ==> b[j] != 'P' by { forall j | 0 <= j < |b| ensures b[j] != 'P' { } }
      assert forall j :: 0 <= j < |c| ==> c[j] != 'P' by { forall j | 0 <= j < |c| ensures c[j] != 'P' { } }
    }
    assert InvalidKeyMarker[1] == 'P';
    NotIncludedWithout(MalformedMessage, InvalidKeyMarker, 1);
  }

  /**
   * The regex's reading of a fenced block: after the opening backticks a tag of word characters,
   * white space, the content (starting with neither, and ending without white space), white space,
   * and the closing backticks. Its group 2 is exactly that content.
   */
  lemma FenceContentOf(tag: string, before: string, content: string, after: string)
    requires AllWord(tag) && AllSpace(before) && AllSpace(after)
    requires content != [] && EdgeTrimmed(content)
    requires before == [] ==> !IsWordChar(content[0])
    ensures FenceContent(Fence + tag + before + content + after + Fence) == Some(content)
  {
    var inside := tag + before + content + after;
    assert Fence + tag + before + content + after + Fence == Fence + inside + Fence;
    FenceInside(inside);
    TagThenContent(tag, before, content, after);
  }

  /** Group 2 is computed from what lies between the backticks. */
  lemma FenceInside(inside: string)
    ensures FenceContent(Fence + inside + Fence) == Some(TrimEnd(TrimStart(DropWhile(inside, IsWordChar))))
  {
    var s := Fence + inside + Fence;
    assert s[..3] == Fence && s[|s| - 3..] == Fence;
    assert s[3..|s| - 3] == inside;
  }

  lemma TagThenContent(tag: string, before: string, content: string, after: string)
    requires AllWord(tag) && AllSpace(before) && AllSpace(after)
    requires content != [] && EdgeTrimmed(content)
    requires before == [] ==> !IsWordChar(content[0])
    ensures TrimEnd(TrimStart(DropWhile(tag + before + content + after, IsWordChar))) == content
  {
    var rest := before + (content + after);
    assert tag + before + content + after == tag + rest;
    TagEndsAtRest(before, content, after);
    TagSkipped(tag, rest);
    LeadingSpaceSkipped(before, content, after);
    TrailingSpaceDropped(content, after);
  }

  lemma TagSkipped(tag: string, rest: string)
    requires AllWord(tag)
    requires rest == [] || !IsWordChar(rest[0])
    ensures DropWhile(tag + rest, IsWordChar) == rest
  {
    DropWhileAfter(tag, rest, IsWordChar);
  }

  lemma LeadingSpaceSkipped(before: string, content: string, after: string)
    requires AllSpace(before) && content != [] && EdgeTrimmed(content)
    ensures TrimStart(before + (content + after)) == content + after
  {
    DropWhileAfter(before, content + after, IsSpace);
  }

  lemma TrailingSpaceDropped(content: string, after: string)
    requires AllSpace(after) && content != [] && EdgeTrimmed(content)
    ensures TrimEnd(content + after) == content
  {
    DropWhileEndBefore(content, after, IsSpace);
  }

  /** The tag stops where the white space or the content begins. */
  lemma TagEndsAtRest(before: string, content: string, after: string)
    requires AllSpace(before) && content != [] && EdgeTrimmed(content)
    requires before == [] ==> !IsWordChar(content[0])
    ensures !IsWordChar((before + (content + after))[0])
  {
    if before == [] {
      assert before + (content + after) == content + after;
    } else {
      assert (before + (content + after))[0] == before[0];
    }
  }

  /** A reply made of a fenced block, possibly padded with white space, is unwrapped to its content. */
  lemma StripFencedReply(pad1: string, tag: string, before: string, content: string, after: string, pad2: string)
    requires AllSpace(pad1) && AllSpace(pad2)
    requires AllWord(tag) && AllSpace(before) && AllSpace(after)
    requires content != [] && EdgeTrimmed(content)
    requires before == [] ==> !IsWordChar(content[0])
    ensures StripFence(pad1 + (Fence + tag + before + content + after + Fence) + pad2) == content
  {
    var block := Fence + tag + before + content + after + Fence;
    assert block[0] == '`' && block[|block| - 1] == '`';
    TrimPadded(pad1, block, pad2);
    FenceContentOf(tag, before, content, after);
    FencedContentKept(pad1 + block + pad2, content);
  }

  /** When the trimmed reply captures a non-empty, already trimmed content, that content is the result. */
  lemma FencedContentKept(reply: string, content: string)
    requires FenceContent(Trim(reply)) == Some(content)
    requires content != [] && EdgeTrimmed(content)
    ensures StripFence(reply) == content
  {
    TrimFixed(content);
  }

  /** A reply that does not open with three backticks once trimmed is only trimmed. */
  lemma UnfencedReplyOnlyTrimmed(reply: string)
    requires !StartsWith(Trim(reply), Fence)
    ensures StripFence(reply) == Trim(reply)
  {
  }

  /**
   * A fence holding only a tag and white space captures nothing, so the reply is passed on as
   * it stands: "```json```" reaches the parser with its backticks.
   */
  lemma TagOnlyFenceKept(tag: string, ws: string)
    requires AllWord(tag) && AllSpace(ws)
    ensures StripFence(Fence + tag + ws + Fence) == Fence + tag + ws + Fence
  {
    var s := Fence + tag + ws + Fence;
    assert s[0] == '`' && s[|s| - 1] == '`';
    TrimFixed(s);
    TagOnlyCapturesNothing(tag, ws);
  }

  lemma TagOnlyCapturesNothing(tag: string, ws: string)
    requires AllWord(tag) && AllSpace(ws)
    ensures FenceContent(Fence + tag + ws + Fence) == Some([])
  {
    assert Fence + tag + ws + Fence == Fence + (tag + ws) + Fence;
    FenceInside(tag + ws);
    var inner := DropWhile(tag + ws, IsWordChar);
    TagThenSpace(tag, ws);
    assert inner == ws;
    SpaceOnlyTrimmedAway(ws);
  }

  lemma TagThenSpace(tag: string, ws: string)
    requires AllWord(tag) && AllSpace(ws)
    ensures DropWhile(tag + ws, IsWordChar) == ws
  {
    if ws != [] {
      assert IsSpace(ws[0]);
    }
    TagSkipped(tag, ws);
  }

  lemma SpaceOnlyTrimmedAway(ws: string)
    requires AllSpace(ws)
    ensures TrimEnd(TrimStart(ws)) == []
  {
    DropWhileAfter(ws, [], IsSpace);
    assert ws + [] == ws;
  }

  /**
   * The same JSON payload, bare or wrapped in a ```json fence, yields the same outcome: unwrapping
   * the fence changes nothing the parser sees.
   */
  lemma FencedPayloadSameOutcome(apiKey: Option<string>, payload: string, jsonParse: string -> Result<Json, string>)
    requires payload != [] && EdgeTrimmed(payload)
    requires payload[0] != '`'
    ensures AnalyzeTransaction(apiKey, Replied(Fence + "json\n" + payload + "\n" + Fence), jsonParse)
         == AnalyzeTransaction(apiKey, Replied(payload), jsonParse)
  {
    WrappedPayloadStripped(payload);
    BarePayloadKept(payload);
    SameStrippedSameOutcome(apiKey, Fence + "json\n" + payload + "\n" + Fence, payload, jsonParse);
  }

  /** Only the unwrapped text reaches the parser, so two replies that unwrap alike fare alike. */
  lemma SameStrippedSameOutcome(apiKey: Option<string>, x: string, y: string, jsonParse: string -> Result<Json, string>)
    requires StripFence(x) == StripFence(y)
    ensures AnalyzeTransaction(apiKey, Replied(x), jsonParse) == AnalyzeTransaction(apiKey, Replied(y), jsonParse)
  {
  }

  lemma WrappedPayloadStripped(payload: string)
    requires payload != [] && EdgeTrimmed(payload)
    ensures StripFence(Fence + "json\n" + payload + "\n" + Fence) == payload
  {
    var wrapped := Fence + "json\n" + payload + "\n" + Fence;
    assert wrapped == "" + (Fence + "json" + "\n" + payload + "\n" + Fence) + "";
    StripFencedReply("", "json", "\n", payload, "\n", "");
  }

  lemma BarePayloadKept(payload: string)
    requires payload != [] && EdgeTrimmed(payload) && payload[0] != '`'
    ensures StripFence(payload) == payload
  {
    TrimFixed(payload);
    assert !StartsWith(payload, Fence);
    UnfencedReplyOnlyTrimmed(payload);
  }
}

=== FILE: ai_types.dfy ===
/** The records of credit-card-fraud-detector-ai/types.ts. */
module AiTypes {

  /** A submitted transaction: amount in US dollars, merchant category, hour 0-23. */
  datatype TransactionInput = TransactionInput(amount: real, merchantCategory: string, hourOfDay: int)

  /** The verdict parsed from the model's JSON reply. */
  datatype FraudReport = FraudReport(isFraudulent: bool, confidenceScore: real, assessmentSummary: string)
}

=== FILE: detector_app.dfy ===
/**
 * credit-card-fraud-detector/App.tsx: the four pieces of page state and the handlers that
 * change them. Submitting is split at its `await`: `BeginSubmit` runs up to the request and
 * `CompleteSubmit` runs the `try`/`catch`/`finally` once the request has settled. The key is
 * read once from the environment, so it is a constant of the page.
 */
module DetectorApp {
  import opened Wrappers
  import opened JsValues
  import opened DetectorTypes
  import DetectorService

  const NoKeyMessage: string := "API Key is not configured. Please set the API_KEY environment variable."
  const FailurePrefix: string := "Failed to get prediction: "
  const UnknownFailureMessage: string := "An unknown error occurred."

  /** Lines 38-42: the error shown for what `detectFraud` threw. */
  function FailureText(t: Thrown): (text: string)
    ensures text != ""
    ensures t.ErrorThrown? ==> text == FailurePrefix + t.message
    ensures t.OtherThrown? ==> text == UnknownFailureMessage
  {
    match t
    case ErrorThrown(m) => FailurePrefix + m
    case OtherThrown => UnknownFailureMessage
  }

  class FraudDetectorPage {
    /** `process.env.API_KEY`. */
    const apiKey: Option<string>
    var transaction: Option<TransactionInput>
    var prediction: Option<Prediction>
    var isLoading: bool
    var error: Option<string>

    /**
     * What every handler keeps: a request in flight has a key and a transaction and shows
     * neither an error nor a prediction; an error and a prediction never stand together; a
     * prediction belongs to a transaction; without a key nothing was ever predicted; an error
     * shown is never empty.
     */
    predicate Valid()
      reads this
    {
      (isLoading ==> Truthy(apiKey) && transaction.Some? && error.None? && prediction.None?) &&
      !(error.Some? && prediction.Some?) &&
      (prediction.Some? ==> transaction.Some?) &&
      (!Truthy(apiKey) ==> prediction.None?) &&
      (error.Some? ==> error.value != "")
    }

    /** Line 82: the spinner. */
    predicate SpinnerShown()
      reads this
    {
      isLoading
    }

    /** Line 83: the error message. */
    predicate ErrorShown()
      reads this
    {
      Truthy(error)
    }

    /** Line 84: the prediction, with the transaction it is about. */
    predicate PredictionShown()
      reads this
    {
      prediction.Some?
    }

    /** Lines 15-18: nothing submitted, nothing loading, no error. */
    constructor (apiKey: Option<string>)
      ensures this.apiKey == apiKey
      ensures transaction == None && prediction == None && !isLoading && error == None
      ensures Valid()
    {
      this.apiKey := apiKey;
      transaction := None;
      prediction := None;
      isLoading := false;
      error := None;
    }

    /**
     * Lines 22-33, up to the request. Without a key the configuration error is shown, loading
     * is off and the transaction and prediction stay as they were; no request is made. With a
     * key the page starts loading, clears the error and the prediction, and stores the submitted transaction.
     */
    method BeginSubmit(data: TransactionInput) returns (started: bool)
      requires Valid()
      modifies this
      ensures Valid()
      ensures started <==> Truthy(apiKey)
      ensures !started ==>
                error == Some(NoKeyMessage) && !isLoading &&
                transaction == old(transaction) && prediction == old(prediction)
      ensures started ==>
                isLoading && error == None && prediction == None && transaction == Some(data)
    {
      if !Truthy(apiKey) {
        error := Some(NoKeyMessage);
        isLoading := false;
        return false;
      }

      isLoading := true;
      error := None;
      prediction := None;
      transaction := Some(data);
      return true;
    }

    /**
     * Lines 34-46, once `detectFraud` has settled. A prediction is stored with no error; a
     * failure shows its error with no prediction. Loading ends on every path and the
     * transaction is kept.
     */
    method CompleteSubmit(outcome: Result<Prediction, Thrown>)
      requires Valid() && isLoading
      modifies this
      ensures Valid()
      ensures !isLoading && transaction == old(transaction)
      ensures outcome.Success? ==> prediction == Some(outcome.value) && error == None
      ensures outcome.Failure? ==> prediction == None && error == Some(FailureText(outcome.error))
    {
      match outcome {
        case Success(result) =>
          prediction := Some(result);
        case Failure(err) =>
          error := Some(FailureText(err));
          prediction := None;
      }
      isLoading := false;
    }

    /** Lines 49-54: back to the initial state. */
    method Clear()
      requires Valid()
      modifies this
      ensures Valid()
      ensures transaction == None && prediction == None && error == None && !isLoading
    {
      transaction := None;
      prediction := None;
      error := None;
      isLoading := false;
    }
  }

  /** Lines 82-84: under the page's invariant at most one of spinner, error and prediction is on screen. */
  lemma AtMostOneShown(page: FraudDetectorPage)
    requires page.Valid()
    ensures !(page.SpinnerShown() && page.ErrorShown())
    ensures !(page.SpinnerShown() && page.PredictionShown())
    ensures !(page.ErrorShown() && page.PredictionShown())
  {
  }

  /** Without a key the page can only ever show the configuration error: no spinner, no prediction. */
  lemma NoKeyNoPrediction(page: FraudDetectorPage)
    requires page.Valid() && !Truthy(page.apiKey)
    ensures !page.SpinnerShown() && !page.PredictionShown()
  {
  }

  /**
   * `detectFraud` only ever throws one of its two reworded errors, so a failed request shows
   * one of exactly two texts.
   */
  lemma ServiceFailureTexts(e: Thrown)
    ensures FailureText(ErrorThrown(DetectorService.ClassifyFailure(e))) ==
              FailurePrefix + DetectorService.InvalidKeyMessage
         || FailureText(ErrorThrown(DetectorService.ClassifyFailure(e))) ==
              FailurePrefix + DetectorService.CommunicationMessage
  {
  }
}

=== FILE: detector_form.dfy ===
/**
 * credit-card-fraud-detector/components/TransactionForm.tsx: the form's state, its submit
 * handler (three checks in order, the first failure alerted, otherwise one `onSubmit` call),
 * its reset, and when its two buttons are usable. The rendering is outside the model;
 * `parseFloat` and `parseInt(·, 10)` are parameters whose `None` stands for `NaN`.
 */
module DetectorForm {
  import opened Wrappers
  import opened DetectorTypes

  const DefaultHour: string := "14"
  const DefaultScore: string := "75"
  const AmountAlert: string := "Please enter a valid amount."
  const HourAlert: string := "Please enter a valid hour (0-23)."
  const ScoreAlert: string := "Please enter a valid user history score (0-100)."

  /** The amount check passes: a number, and positive. */
  predicate AmountOk(a: Option<real>) {
    a.Some? && a.value > 0.0
  }

  /** The hour check passes: a number in [0, 23]. */
  predicate HourOk(h: Option<int>) {
    h.Some? && 0 <= h.value <= 23
  }

  /** The score check passes: a number in [0, 100]. */
  predicate ScoreOk(s: Option<int>) {
    s.Some? && 0 <= s.value <= 100
  }

  /** What the form lets through to the parent. */
  predicate Admissible(t: TransactionInput) {
    t.amount > 0.0 && 0 <= t.hourOfDay <= 23 && 0 <= t.userHistoryScore <= 100
  }

  class TransactionForm {
    var amount: string
    var merchantCategory: string
    var hourOfDay: string
    var isInternational: bool
    var cardPresent: bool
    var userHistoryScore: string
    var submitted: bool
    /** The first of the merchant categories, which the form starts on and resets to. */
    const firstCategory: string
    /** Every transaction passed to `onSubmit`, oldest first. */
    var submissions: seq<TransactionInput>
    /** Every message shown with `alert`, oldest first. */
    var alerts: seq<string>
    /** How many times `onClear` was called. */
    var clears: nat

    /** Every transaction the form handed to its parent passed the three checks. */
    predicate Valid()
      reads this
    {
      forall i :: 0 <= i < |submissions| ==> Admissible(submissions[i])
    }

    /** The fields as they stand when the form holds its defaults (lines 15-22 and 56-62). */
    predicate AtDefaults()
      reads this
    {
      amount == "" && merchantCategory == firstCategory && hourOfDay == DefaultHour &&
      !isInternational && cardPresent && userHistoryScore == DefaultScore && !submitted
    }

    /**
     * Line 176: the submit button is disabled while loading or while the amount is empty.
     * Whenever it is enabled the Clear button (line 190) is on screen too.
     */
    predicate SubmitEnabled(isLoading: bool)
      reads this
      ensures SubmitEnabled(isLoading) ==> !isLoading && amount != "" && ClearShown()
    {
      !(isLoading || amount == "")
    }

    /** Line 190: the Clear button is rendered once something was submitted or typed as amount. */
    predicate ClearShown()
      reads this
    {
      submitted || amount != ""
    }

    constructor (firstCategory: string)
      ensures this.firstCategory == firstCategory && AtDefaults()
      ensures submissions == [] && alerts == [] && clears == 0
      ensures Valid()
    {
      this.firstCategory := firstCategory;
      amount := "";
      merchantCategory := firstCategory;
      hourOfDay := DefaultHour;
      isInternational := false;
      cardPresent := true;
      userHistoryScore := DefaultScore;
      submitted := false;
      submissions := [];
      alerts := [];
      clears := 0;
    }

    /**
     * Lines 25-53. The amount, hour and score are checked in that order; the first that fails is
     * alerted and nothing is submitted. When all pass, the parent receives the parsed numbers
     * with the category and the two flags as typed, exactly once, and the form is marked submitted.
     */
    method HandleSubmit(parseFloat: string -> Option<real>, parseInt: string -> Option<int>)
      requires Valid()
      modifies this
      ensures Valid()
      ensures amount == old(amount) && merchantCategory == old(merchantCategory)
      ensures hourOfDay == old(hourOfDay) && userHistoryScore == old(userHistoryScore)
      ensures isInternational == old(isInternational) && cardPresent == old(cardPresent)
      ensures clears == old(clears)
      ensures old(ClearShown()) ==> ClearShown()
      ensures !AmountOk(parseFloat(amount)) ==>
                alerts == old(alerts) + [AmountAlert] &&
                submissions == old(submissions) && submitted == old(submitted)
      ensures AmountOk(parseFloat(amount)) && !HourOk(parseInt(hourOfDay)) ==>
                alerts == old(alerts) + [HourAlert] &&
                submissions == old(submissions) && submitted == old(submitted)
      ensures AmountOk(parseFloat(amount)) && HourOk(parseInt(hourOfDay)) && !ScoreOk(parseInt(userHistoryScore)) ==>
                alerts == old(alerts) + [ScoreAlert] &&
                submissions == old(submissions) && submitted == old(submitted)
      ensures AmountOk(parseFloat(amount)) && HourOk(parseInt(hourOfDay)) && ScoreOk(parseInt(userHistoryScore)) ==>
                alerts == old(alerts) && submitted &&
                submissions == old(submissions) + [TransactionInput(
                  parseFloat(amount).value, merchantCategory, parseInt(hourOfDay).value,
                  isInternational, cardPresent, parseInt(userHistoryScore).value)]
    {
      var parsedAmount := parseFloat(amount);
      var parsedHour := parseInt(hourOfDay);
      var parsedScore := parseInt(userHistoryScore);

      if parsedAmount.None? || parsedAmount.value <= 0.0 {
        alerts := alerts + [AmountAlert];
        return;
      }
      if parsedHour.None? || parsedHour.value < 0 || parsedHour.value > 23 {
        alerts := alerts + [HourAlert];
        return;
      }
      if parsedScore.None? || parsedScore.value < 0 || parsedScore.value > 100 {
        alerts := alerts + [ScoreAlert];
        return;
      }

      submissions := submissions + [TransactionInput(
        parsedAmount.value, merchantCategory, parsedHour.value,
        isInternational, cardPresent, parsedScore.value)];
      submitted := true;
    }

    /**
     * Lines 55-64: every field back to its default, then `onClear` is called once. Afterwards
     * the Clear button is gone and the submit button stays disabled until an amount is typed.
     */
    method HandleClearForm()
      requires Valid()
      modifies this
      ensures Valid()
      ensures AtDefaults()
      ensures submissions == old(submissions) && alerts == old(alerts) && clears == old(clears) + 1
      ensures !ClearShown() && !SubmitEnabled(false)
    {
      amount := "";
      merchantCategory := firstCategory;
      hourOfDay := DefaultHour;
      isInternational := false;
      cardPresent := true;
      userHistoryScore := DefaultScore;
      submitted := false;
      clears := clears + 1;
    }
  }
}

=== FILE: detector_service.dfy ===
/**
 * credit-card-fraud-detector/services/geminiService.ts: reading the verdict out of the
 * model's labeled-line reply, and turning a failed call into a user-facing error.
 * The prompt and the request itself are outside the model; the request's outcome is an input.
 */
module DetectorService {
  import opened Wrappers
  import opened JsStrings
  import opened JsValues
  import opened DetectorTypes

  const AssessmentLabel: string := "assessment:"
  const ReasonLabel: string := "reason:"
  const ConfidenceLabel: string := "confidence:"
  const DefaultReason: string := "Could not determine reason."
  const InvalidKeyMarker: string := "API key not valid"
  const InvalidKeyMessage: string := "Invalid API Key. Please check your configuration."
  const CommunicationMessage: string := "Failed to communicate with the AI model. Please try again later."

  /** The reply cut at every line feed, as `text.split('\n')`. */
  function Lines(text: string): seq<string> {
    Split(text, '\n')
  }

  /** The line's lower-cased text starts with `prefix`; leading white space is not skipped. */
  predicate HasLabel(line: string, prefix: string) {
    StartsWith(ToLower(line), prefix)
  }

  /** `lines.find(line => line.toLowerCase().startsWith(prefix))`, as the index of the line it finds. */
  function FindLabeled(lines: seq<string>, prefix: string): (r: Option<nat>)
    ensures r.Some? ==> r.value < |lines| && HasLabel(lines[r.value], prefix)
    ensures r.Some? ==> forall j :: 0 <= j < r.value ==> !HasLabel(lines[j], prefix)
    ensures r.None? ==> forall j :: 0 <= j < |lines| ==> !HasLabel(lines[j], prefix)
    decreases |lines|
  {
    if |lines| == 0 then None
    else if HasLabel(lines[0], prefix) then Some(0)
    else
      match FindLabeled(lines[1..], prefix)
      case None => None
      case Some(k) => Some(k + 1)
  }

  /** `line.substring(prefix.length).trim()`: what follows the prefix, without edge white space. */
  function ValueAfter(line: string, prefix: string): string
    requires HasLabel(line, prefix)
  {
    Trim(line[|prefix|..])
  }

  /**
   * How the final `isFraudulent` is decided: by the first assessment line when there is one,
   * and otherwise by whether the reply mentions "fraudulent" anywhere.
   */
  predicate FlagRule(text: string, isFraudulent: bool) {
    var lines := Lines(text);
    match FindLabeled(lines, AssessmentLabel)
    case Some(i) => isFraudulent == (ToLower(ValueAfter(lines[i], AssessmentLabel)) == "fraudulent")
    case None => isFraudulent == Includes(ToLower(text), "fraudulent")
  }

  /**
   * How the final `reason` is decided: the whole reply when there is no assessment line but
   * the reply mentions either verdict word; otherwise the first reason line, or the default.
   */
  predicate ReasonRule(text: string, reason: string) {
    var lines := Lines(text);
    var lowered := ToLower(text);
    if FindLabeled(lines, AssessmentLabel).None? &&
       (Includes(lowered, "fraudulent") || Includes(lowered, "legitimate"))
    then
      reason == text
    else
      match FindLabeled(lines, ReasonLabel)
      case Some(j) => reason == ValueAfter(lines[j], ReasonLabel)
      case None => reason == DefaultReason
  }

  /**
   * How the final `confidenceScore` is decided: the number on the first confidence line when
   * it parses and lies in [0, 1], and absent otherwise. `parseFloat` answers `None` for `NaN`
   * (and for the infinities, which the range check rejects all the same).
   */
  predicate ConfidenceRule(text: string, parseFloat: string -> Option<real>, score: Option<real>) {
    var lines := Lines(text);
    match FindLabeled(lines, ConfidenceLabel)
    case None => score == None
    case Some(k) =>
      var parsed := parseFloat(ValueAfter(lines[k], ConfidenceLabel));
      score == if parsed.Some? && 0.0 <= parsed.value <= 1.0 then parsed else None
  }

  /** `p` is the verdict the parser gives for `text`. */
  predicate IsVerdict(text: string, parseFloat: string -> Option<real>, p: Prediction) {
    FlagRule(text, p.isFraudulent) && ReasonRule(text, p.reason) &&
    ConfidenceRule(text, parseFloat, p.confidenceScore)
  }

  /** The reply parser: three locals set to defaults and then overwritten by guarded steps. */
  method ParseReply(text: string, parseFloat: string -> Option<real>) returns (p: Prediction)
    ensures FlagRule(text, p.isFraudulent)
    ensures ReasonRule(text, p.reason)
    ensures ConfidenceRule(text, parseFloat, p.confidenceScore)
    ensures p.confidenceScore.Some? ==> 0.0 <= p.confidenceScore.value <= 1.0
  {
    var lines := Lines(text);
    var isFraudulent := false;
    var reason := DefaultReason;
    var confidenceScore: Option<real> := None;

    var assessmentLine := FindLabeled(lines, AssessmentLabel);
    if assessmentLine.Some? {
      var assessmentValue := ToLower(ValueAfter(lines[assessmentLine.value], AssessmentLabel));
      if assessmentValue == "fraudulent" {
        isFraudulent := true;
      }
    }

    var reasonLine := FindLabeled(lines, ReasonLabel);
    if reasonLine.Some? {
      reason := ValueAfter(lines[reasonLine.value], ReasonLabel);
    }

    var confidenceLine := FindLabeled(lines, ConfidenceLabel);
    if confidenceLine.Some? {
      var score := parseFloat(ValueAfter(lines[confidenceLine.value], ConfidenceLabel));
      if score.Some? && 0.0 <= score.value && score.value <= 1.0 {
        confidenceScore := score;
      }
    }

    // Fallback when no assessment line exists: the whole reply becomes the reason.
    var lowered := ToLower(text);
    if assessmentLine.None? && Includes(lowered, "fraudulent") {
      isFraudulent := true;
      reason := text;
    } else if assessmentLine.None? && Includes(lowered, "legitimate") {
      isFraudulent := false;
      reason := text;
    }

    p := Prediction(isFraudulent, reason, confidenceScore);
  }

  /** The `catch` block: an invalid-key failure is named as such, every other failure is generic. */
  function ClassifyFailure(e: Thrown): (message: string)
    ensures message == InvalidKeyMessage <==> e.ErrorThrown? && Includes(e.message, InvalidKeyMarker)
    ensures message == InvalidKeyMessage || message == CommunicationMessage
  {
    if e.ErrorThrown? && Includes(e.message, InvalidKeyMarker) then InvalidKeyMessage
    else CommunicationMessage
  }

  /** `detectFraud` once the request has settled: a reply is parsed, a failure is re-thrown reworded. */
  method DetectFraud(outcome: GatewayOutcome, parseFloat: string -> Option<real>)
    returns (r: Result<Prediction, string>)
    ensures outcome.Threw? ==> r == Failure(ClassifyFailure(outcome.thrown))
    ensures outcome.Replied? ==> r.Success? && IsVerdict(outcome.text, parseFloat, r.value)
  {
    match outcome
    case Threw(e) =>
      r := Failure(ClassifyFailure(e));
    case Replied(text) =>
      var p := ParseReply(text, parseFloat);
      r := Success(p);
  }

  /** The rules leave no freedom: a reply has exactly one verdict. */
  lemma VerdictUnique(text: string, parseFloat: string -> Option<real>, p: Prediction, q: Prediction)
    requires IsVerdict(text, parseFloat, p) && IsVerdict(text, parseFloat, q)
    ensures p == q
  {
  }

  /** A prefix indented by white space is not recognised, since prefixes are matched on the raw line. */
  lemma IndentedLabelIgnored(line: string, prefix: string)
    requires |line| > 0 && IsSpace(line[0])
    requires |prefix| > 0 && !IsSpace(prefix[0])
    ensures !HasLabel(line, prefix)
  {
    assert ToLower(line)[0] == line[0];
  }

  /** With no assessment line, a reply naming both verdict words is flagged fraudulent. */
  lemma FraudulentWinsFallback(text: string, parseFloat: string -> Option<real>, p: Prediction)
    requires IsVerdict(text, parseFloat, p)
    requires FindLabeled(Lines(text), AssessmentLabel).None?
    requires Includes(ToLower(text), "fraudulent") && Includes(ToLower(text), "legitimate")
    ensures p.isFraudulent && p.reason == text
  {
  }

  /** With no assessment line, a reply naming "legitimate" but not "fraudulent" is cleared, with the whole reply as reason. */
  lemma LegitimateFallback(text: string, parseFloat: string -> Option<real>, p: Prediction)
    requires IsVerdict(text, parseFloat, p)
    requires FindLabeled(Lines(text), AssessmentLabel).None?
    requires !Includes(ToLower(text), "fraudulent") && Includes(ToLower(text), "legitimate")
    ensures !p.isFraudulent && p.reason == text
  {
  }

  /**
   * An assessment line switches the fallback off: the flag is read from that line and the
   * reason from the first reason line (or the default), whatever words the rest of the reply holds.
   */
  lemma AssessmentLineOverridesFallback(text: string, parseFloat: string -> Option<real>, p: Prediction)
    requires IsVerdict(text, parseFloat, p)
    requires FindLabeled(Lines(text), AssessmentLabel).Some?
    ensures var lines := Lines(text);
            var i := FindLabeled(lines, AssessmentLabel).value;
            p.isFraudulent == (ToLower(ValueAfter(lines[i], AssessmentLabel)) == "fraudulent")
    ensures var lines := Lines(text);
            p.reason == match FindLabeled(lines, ReasonLabel)
                        case Some(j) => ValueAfter(lines[j], ReasonLabel)
                        case None => DefaultReason
  {
  }

  /** When several lines carry a label, the first of them is the one found. */
  lemma FirstLabeledLine(lines: seq<string>, prefix: string, i: nat)
    requires i < |lines| && HasLabel(lines[i], prefix)
    requires forall j :: 0 <= j < i ==> !HasLabel(lines[j], prefix)
    ensures FindLabeled(lines, prefix) == Some(i)
  {
  }

  /**
   * Only the first assessment line counts: a later one, whatever it says, does not change
   * the flag.
   */
  lemma FirstAssessmentDecides(text: string, parseFloat: string -> Option<real>, p: Prediction, i: nat)
    requires IsVerdict(text, parseFloat, p)
    requires i < |Lines(text)| && HasLabel(Lines(text)[i], AssessmentLabel)
    requires forall j :: 0 <= j < i ==> !HasLabel(Lines(text)[j], AssessmentLabel)
    ensures p.isFraudulent == (ToLower(ValueAfter(Lines(text)[i], AssessmentLabel)) == "fraudulent")
  {
    FirstLabeledLine(Lines(text), AssessmentLabel, i);
  }

  /** The three lines of a reply in the requested format, cut apart again. */
  lemma ThreeLines(verdict: string, why: string, conf: string)
    requires '\n' !in verdict && '\n' !in why && '\n' !in conf
    ensures Lines("Assessment: " + verdict + "\nReason: " + why + "\nConfidence: " + conf)
         == ["Assessment: " + verdict, "Reason: " + why, "Confidence: " + conf]
  {
    var l0, l1, l2 := "Assessment: " + verdict, "Reason: " + why, "Confidence: " + conf;
    assert Join([l2], '\n') == l2;
    assert [l1, l2][1..] == [l2];
    assert [l0, l1, l2][1..] == [l1, l2];
    assert "Assessment: " + verdict + "\nReason: " + why + "\nConfidence: " + conf == Join([l0, l1, l2], '\n');
    SplitJoin([l0, l1, l2], '\n');
  }

  /** Each of the three lines carries its own label and no other. */
  lemma ThreeLabels(verdict: string, why: string, conf: string)
    ensures FindLabeled(["Assessment: " + verdict, "Reason: " + why, "Confidence: " + conf], AssessmentLabel) == Some(0)
    ensures FindLabeled(["Assessment: " + verdict, "Reason: " + why, "Confidence: " + conf], ReasonLabel) == Some(1)
    ensures FindLabeled(["Assessment: " + verdict, "Reason: " + why, "Confidence: " + conf], ConfidenceLabel) == Some(2)
  {
    var l0, l1, l2 := "Assessment: " + verdict, "Reason: " + why, "Confidence: " + conf;
    assert ToLower(l0)[..11] == AssessmentLabel;
    assert ToLower(l0)[0] == 'a' && ToLower(l1)[0] == 'r';
    assert ToLower(l1)[..7] == ReasonLabel;
    assert ToLower(l2)[..11] == ConfidenceLabel;
    assert [l0, l1, l2][1..] == [l1, l2];
    assert [l1, l2][1..] == [l2];
    assert FindLabeled([l2], ConfidenceLabel) == Some(0);
    assert FindLabeled([l1, l2], ConfidenceLabel) == Some(1);
  }

  lemma ThreeLineFlag(text: string, verdict: string, why: string, conf: string, isFraudulent: bool)
    requires '\n' !in verdict && '\n' !in why && '\n' !in conf && EdgeTrimmed(verdict)
    requires text == "Assessment: " + verdict + "\nReason: " + why + "\nConfidence: " + conf
    requires FlagRule(text, isFraudulent)
    ensures isFraudulent == (ToLower(verdict) == "fraudulent")
  {
    var l0 := "Assessment: " + verdict;
    ThreeLines(verdict, why, conf);
    ThreeLabels(verdict, why, conf);
    TrimAfterSpace(verdict);
    assert l0[11..] == " " + verdict;
    assert ValueAfter(l0, AssessmentLabel) == verdict;
  }

  lemma ThreeLineReason(text: string, verdict: string, why: string, conf: string, reason: string)
    requires '\n' !in verdict && '\n' !in why && '\n' !in conf && EdgeTrimmed(why)
    requires text == "Assessment: " + verdict + "\nReason: " + why + "\nConfidence: " + conf
    requires ReasonRule(text, reason)
    ensures reason == why
  {
    var l1 := "Reason: " + why;
    ThreeLines(verdict, why, conf);
    ThreeLabels(verdict, why, conf);
    TrimAfterSpace(why);
    assert l1[7..] == " " + why;
    assert ValueAfter(l1, ReasonLabel) == why;
  }

  lemma ThreeLineConfidence(text: string, verdict: string, why: string, conf: string,
                            parseFloat: string -> Option<real>, score: Option<real>)
    requires '\n' !in verdict && '\n' !in why && '\n' !in conf && EdgeTrimmed(conf)
    requires text == "Assessment: " + verdict + "\nReason: " + why + "\nConfidence: " + conf
    requires ConfidenceRule(text, parseFloat, score)
    ensures score == if parseFloat(conf).Some? && 0.0 <= parseFloat(conf).value <= 1.0 then parseFloat(conf) else None
  {
    var l2 := "Confidence: " + conf;
    ThreeLines(verdict, why, conf);
    ThreeLabels(verdict, why, conf);
    TrimAfterSpace(conf);
    assert l2[11..] == " " + conf;
    assert ValueAfter(l2, ConfidenceLabel) == conf;
  }

  /**
   * A reply in the requested three-line format gives the verdict, the reason sentence and the
   * confidence written on its lines.
   */
  lemma ThreeLineReply(text: string, verdict: string, why: string, conf: string,
                       parseFloat: string -> Option<real>, p: Prediction)
    requires '\n' !in verdict && '\n' !in why && '\n' !in conf
    requires EdgeTrimmed(verdict) && EdgeTrimmed(why) && EdgeTrimmed(conf)
    requires text == "Assessment: " + verdict + "\nReason: " + why + "\nConfidence: " + conf
    requires IsVerdict(text, parseFloat, p)
    ensures p.isFraudulent == (ToLower(verdict) == "fraudulent")
    ensures p.reason == why
    ensures p.confidenceScore ==
      if parseFloat(conf).Some? && 0.0 <= parseFloat(conf).value <= 1.0 then parseFloat(conf) else None
  {
    ThreeLineFlag(text, verdict, why, conf, p.isFraudulent);
    ThreeLineReason(text, verdict, why, conf, p.reason);
    ThreeLineConfidence(text, verdict, why, conf, parseFloat, p.confidenceScore);
  }

  /** The two lines of a reply that leaves out the optional confidence, cut apart again. */
  lemma TwoLines(verdict: string, why: string)
    requires '\n' !in verdict && '\n' !in why
    ensures Lines("Assessment: " + verdict + "\nReason: " + why) == ["Assessment: " + verdict, "Reason: " + why]
  {
    var l0, l1 := "Assessment: " + verdict, "Reason: " + why;
    assert Join([l1], '\n') == l1;
    assert [l0, l1][1..] == [l1];
    assert "Assessment: " + verdict + "\nReason: " + why == Join([l0, l1], '\n');
    SplitJoin([l0, l1], '\n');
  }

  /** In such a reply each of the two labels is found on its own line, and no confidence line is found. */
  lemma TwoLabels(verdict: string, why: string)
    ensures FindLabeled(["Assessment: " + verdict, "Reason: " + why], AssessmentLabel) == Some(0)
    ensures FindLabeled(["Assessment: " + verdict, "Reason: " + why], ReasonLabel) == Some(1)
    ensures FindLabeled(["Assessment: " + verdict, "Reason: " + why], ConfidenceLabel) == None
  {
    var l0, l1 := "Assessment: " + verdict, "Reason: " + why;
    assert ToLower(l0)[..11] == AssessmentLabel;
    assert ToLower(l0)[0] == 'a' && ToLower(l1)[0] == 'r';
    assert ToLower(l1)[..7] == ReasonLabel;
    assert [l0, l1][1..] == [l1];
    assert [l1][1..] == [];
    assert FindLabeled([l1], ConfidenceLabel) == None;
  }

  lemma TwoLineFlag(text: string, verdict: string, why: string, isFraudulent: bool)
    requires '\n' !in verdict && '\n' !in why && EdgeTrimmed(verdict)
    requires text == "Assessment: " + verdict + "\nReason: " + why
    requires FlagRule(text, isFraudulent)
    ensures isFraudulent == (ToLower(verdict) == "fraudulent")
  {
    var l0 := "Assessment: " + verdict;
    TwoLines(verdict, why);
    TwoLabels(verdict, why);
    TrimAfterSpace(verdict);
    assert l0[11..] == " " + verdict;
    assert ValueAfter(l0, AssessmentLabel) == verdict;
  }

  lemma TwoLineReason(text: string, verdict: string, why: string, reason: string)
    requires '\n' !in verdict && '\n' !in why && EdgeTrimmed(why)
    requires text == "Assessment: " + verdict + "\nReason: " + why
    requires ReasonRule(text, reason)
    ensures reason == why
  {
    var l1 := "Reason: " + why;
    TwoLines(verdict, why);
    TwoLabels(verdict, why);
    TrimAfterSpace(why);
    assert l1[7..] == " " + why;
    assert ValueAfter(l1, ReasonLabel) == why;
  }

  lemma TwoLineConfidence(text: string, verdict: string, why: string,
                          parseFloat: string -> Option<real>, score: Option<real>)
    requires '\n' !in verdict && '\n' !in why
    requires text == "Assessment: " + verdict + "\nReason: " + why
    requires ConfidenceRule(text, parseFloat, score)
    ensures score == None
  {
    TwoLines(verdict, why);
    TwoLabels(verdict, why);
  }

  /**
   * A reply that leaves out the optional confidence line gives the verdict and reason sentence
   * written on its lines, and no confidence.
   */
  lemma TwoLineReply(text: string, verdict: string, why: string,
                     parseFloat: string -> Option<real>, p: Prediction)
    requires '\n' !in verdict && '\n' !in why
    requires EdgeTrimmed(verdict) && EdgeTrimmed(why)
    requires text == "Assessment: " + verdict + "\nReason: " + why
    requires IsVerdict(text, parseFloat, p)
    ensures p.isFraudulent == (ToLower(verdict) == "fraudulent")
    ensures p.reason == why
    ensures p.confidenceScore == None
  {
    TwoLineFlag(text, verdict, why, p.isFraudulent);
    TwoLineReason(text, verdict, why, p.reason);
    TwoLineConfidence(text, verdict, why, parseFloat, p.confidenceScore);
  }
}

=== FILE: detector_types.dfy ===
/** The records of credit-card-fraud-detector/types.ts. */
module DetectorTypes {
  import opened Wrappers

  /** A submitted transaction: amount in currency units, hour 0-23, history score 0-100. */
  datatype TransactionInput = TransactionInput(
    amount: real,
    merchantCategory: string,
    hourOfDay: int,
    isInternational: bool,
    cardPresent: bool,
    userHistoryScore: int)

  /** The verdict parsed from the model's labeled-line reply; the confidence is optional. */
  datatype Prediction = Prediction(isFraudulent: bool, reason: string, confidenceScore: Option<real>)
}

=== FILE: js_strings.dfy ===
/**
 * The JavaScript string primitives the parsers rely on: `trim`, `toLowerCase`,
 * `startsWith`, `includes` and `split`, each stated over `seq<char>`.
 */
module JsStrings {

  /** The code points ECMAScript calls WhiteSpace or LineTerminator: what `trim` removes and `\s` matches. */
  predicate IsSpace(c: char) {
    var n := c as int;
    n == 0x09 || n == 0x0A || n == 0x0B || n == 0x0C || n == 0x0D || n == 0x20 || n == 0xA0 ||
    n == 0x1680 || (0x2000 <= n <= 0x200A) || n == 0x2028 || n == 0x2029 || n == 0x202F ||
    n == 0x205F || n == 0x3000 || n == 0xFEFF
  }

  /** The characters a regular-expression `\w` matches (no `u` flag): ASCII letters, digits and `_`. */
  predicate IsWordChar(c: char) {
    ('a' <= c <= 'z') || ('A' <= c <= 'Z') || ('0' <= c <= '9') || c == '_'
  }

  predicate AllSpace(s: string) {
    forall i :: 0 <= i < |s| ==> IsSpace(s[i])
  }

  /** No white space at either end. */
  predicate EdgeTrimmed(s: string) {
    s == [] || (!IsSpace(s[0]) && !IsSpace(s[|s| - 1]))
  }

  predicate AllWord(s: string) {
    forall i :: 0 <= i < |s| ==> IsWordChar(s[i])
  }

  /** Drops the longest prefix of `s` whose characters all satisfy `p`. */
  function DropWhile(s: string, p: char -> bool): (r: string)
    ensures |r| <= |s| && s == s[..|s| - |r|] + r
    ensures forall i :: 0 <= i < |s| - |r| ==> p(s[i])
    ensures r == [] || !p(r[0])
    decreases |s|
  {
    if |s| > 0 && p(s[0]) then DropWhile(s[1..], p) else s
  }

  /** Drops the longest suffix of `s` whose characters all satisfy `p`. */
  function DropWhileEnd(s: string, p: char -> bool): (r: string)
    ensures |r| <= |s| && s == r + s[|r|..]
    ensures forall i :: |r| <= i < |s| ==> p(s[i])
    ensures r == [] || !p(r[|r| - 1])
    decreases |s|
  {
    if |s| > 0 && p(s[|s| - 1]) then DropWhileEnd(s[..|s| - 1], p) else s
  }

  function TrimStart(s: string): string {
    DropWhile(s, IsSpace)
  }

  function TrimEnd(s: string): string {
    DropWhileEnd(s, IsSpace)
  }

  /** `String.prototype.trim`: `s` without its leading and trailing white space. */
  function Trim(s: string): (r: string)
    ensures |r| <= |s|
    ensures EdgeTrimmed(r)
  {
    TrimEnd(TrimStart(s))
  }

  /** `trim` only takes white space off the ends: the text is the result with white space before and after it. */
  lemma TrimDecomposes(s: string)
    ensures exists k :: 0 <= k <= |s| - |Trim(s)| && s == s[..k] + Trim(s) + s[k + |Trim(s)|..] &&
                        AllSpace(s[..k]) && AllSpace(s[k + |Trim(s)|..])
  {
    var t := TrimStart(s);
    var r := TrimEnd(t);
    var k := |s| - |t|;
    assert s[k..] == t;
    assert s[k + |r|..] == t[|r|..];
    assert s == s[..k] + r + s[k + |r|..];
  }

  /** Dropping a prefix made only of `p`-characters, up to the first character that is not one. */
  lemma {:induction false} DropWhileAfter(x: string, y: string, p: char -> bool)
    requires forall i :: 0 <= i < |x| ==> p(x[i])
    requires y == [] || !p(y[0])
    ensures DropWhile(x + y, p) == y
    decreases |x|
  {
    if |x| > 0 {
      assert (x + y)[1..] == x[1..] + y;
      DropWhileAfter(x[1..], y, p);
    } else {
      assert x + y == y;
    }
  }

  /** Dropping a suffix made only of `p`-characters, back to the last character that is not one. */
  lemma {:induction false} DropWhileEndBefore(x: string, y: string, p: char -> bool)
    requires forall i :: 0 <= i < |y| ==> p(y[i])
    requires x == [] || !p(x[|x| - 1])
    ensures DropWhileEnd(x + y, p) == x
    decreases |y|
  {
    if |y| > 0 {
      assert (x + y)[..|x + y| - 1] == x + y[..|y| - 1];
      DropWhileEndBefore(x, y[..|y| - 1], p);
    } else {
      assert x + y == x;
    }
  }

  /** Trimming recovers any text free of edge white space from between two runs of white space. */
  lemma TrimPadded(a: string, m: string, b: string)
    requires AllSpace(a) && AllSpace(b)
    requires EdgeTrimmed(m)
    ensures Trim(a + m + b) == m
  {
    if m == [] {
      assert a + m + b == a + b;
      DropWhileAfter(a + b, [], IsSpace);
      assert a + b + [] == a + b;
    } else {
      assert a + m + b == a + (m + b);
      DropWhileAfter(a, m + b, IsSpace);
      DropWhileEndBefore(m, b, IsSpace);
    }
  }

  /** A string with no white space at either end is its own trim. */
  lemma TrimFixed(s: string)
    requires EdgeTrimmed(s)
    ensures Trim(s) == s
  {
    TrimPadded([], s, []);
    assert [] + s + [] == s;
  }

  /** The value after a label and one space, as `trim` recovers it. */
  lemma TrimAfterSpace(s: string)
    requires EdgeTrimmed(s)
    ensures Trim(" " + s) == s
  {
    assert " " + s + "" == " " + s;
    TrimPadded(" ", s, "");
  }

  lemma TrimIdempotent(s: string)
    ensures Trim(Trim(s)) == Trim(s)
  {
    var t := Trim(s);
    assert EdgeTrimmed(t);
    TrimFixed(t);
  }

  /** `toLowerCase` on one character; only the ASCII letters are folded. */
  function LowerChar(c: char): char {
    if 'A' <= c <= 'Z' then (c as int + 32) as char else c
  }

  function ToLower(s: string): (r: string)
    ensures |r| == |s| && forall i :: 0 <= i < |s| ==> r[i] == LowerChar(s[i])
  {
    seq(|s|, i requires 0 <= i < |s| => LowerChar(s[i]))
  }

  /** `s.startsWith(p)`. */
  predicate StartsWith(s: string, p: string) {
    |p| <= |s| && s[..|p|] == p
  }

  /** `t` occurs in `s` starting at index `i`. */
  predicate OccursAt(s: string, t: string, i: int) {
    0 <= i && i + |t| <= |s| && s[i..i + |t|] == t
  }

  /** `s.includes(t)`: `t` occurs somewhere in `s`. */
  function Includes(s: string, t: string): (r: bool)
    ensures r <==> exists i :: OccursAt(s, t, i)
    decreases |s|
  {
    if StartsWith(s, t) then
      assert OccursAt(s, t, 0);
      true
    else if |s| <= |t| then
      assert forall i :: OccursAt(s, t, i) ==> i == 0;
      false
    else
      var r := Includes(s[1..], t);
      assert r ==> exists i :: OccursAt(s, t, i) by {
        if r {
          var j :| OccursAt(s[1..], t, j);
          assert s[j + 1..j + 1 + |t|] == s[1..][j..j + |t|];
          assert OccursAt(s, t, j + 1);
        }
      }
      assert (exists i :: OccursAt(s, t, i)) ==> r by {
        if exists i :: OccursAt(s, t, i) {
          var i :| OccursAt(s, t, i);
          assert i != 0;
          assert s[1..][i - 1..i - 1 + |t|] == s[i..i + |t|];
          assert OccursAt(s[1..], t, i - 1);
        }
      }
      r
  }

  /** A text that lacks one of the characters of `t` does not include `t`. */
  lemma NotIncludedWithout(s: string, t: string, k: nat)
    requires k < |t| && forall j :: 0 <= j < |s| ==> s[j] != t[k]
    ensures !Includes(s, t)
  {
  }

  /** `s.split(sep)` for a one-character separator: the pieces between separators, always at least one. */
  function Split(s: string, sep: char): (r: seq<string>)
    ensures |r| >= 1
    ensures forall k :: 0 <= k < |r| ==> sep !in r[k]
    decreases |s|
  {
    if |s| == 0 then [""]
    else
      var rest := Split(s[1..], sep);
      if s[0] == sep then [""] + rest
      else [[s[0]] + rest[0]] + rest[1..]
  }

  /** `parts.join(sep)`: the inverse of `Split`. */
  function Join(parts: seq<string>, sep: char): string
    requires |parts| >= 1
    decreases |parts|
  {
    if |parts| == 1 then parts[0] else parts[0] + [sep] + Join(parts[1..], sep)
  }

  /** Splitting loses nothing: joining the pieces back gives the original text. */
  lemma {:induction false} JoinSplit(s: string, sep: char)
    ensures Join(Split(s, sep), sep) == s
    decreases |s|
  {
    if |s| > 0 {
      var rest := Split(s[1..], sep);
      JoinSplit(s[1..], sep);
      if s[0] == sep {
        assert Split(s, sep)[1..] == rest;
      } else {
        var r := Split(s, sep);
        if |rest| == 1 {
          assert r == [[s[0]] + rest[0]];
        } else {
          assert r[1..] == rest[1..];
          assert Join(rest, sep) == rest[0] + [sep] + Join(rest[1..], sep);
        }
        assert s == [s[0]] + s[1..];
      }
    }
  }

  /** Splitting text that starts with a separator-free piece `x`: `x` opens the first piece. */
  lemma {:induction false} SplitAfterPiece(x: string, y: string, sep: char)
    requires sep !in x
    ensures Split(x + y, sep) == [x + Split(y, sep)[0]] + Split(y, sep)[1..]
    decreases |x|
  {
    if |x| == 0 {
      var r := Split(y, sep);
      assert x + y == y && x + r[0] == r[0];
      assert r == [r[0]] + r[1..];
    } else {
      assert (x + y)[1..] == x[1..] + y;
      SplitAfterPiece(x[1..], y, sep);
      assert [x[0]] + (x[1..] + Split(y, sep)[0]) == x + Split(y, sep)[0];
    }
  }

  /** Joining separator-free pieces and splitting again gives the pieces back. */
  lemma {:induction false} SplitJoin(parts: seq<string>, sep: char)
    requires |parts| >= 1
    requires forall k :: 0 <= k < |parts| ==> sep !in parts[k]
    ensures Split(Join(parts, sep), sep) == parts
    decreases |parts|
  {
    if |parts| == 1 {
      SplitAfterPiece(parts[0], [], sep);
      assert parts[0] + [] == parts[0];
    } else {
      var tail := Join(parts[1..], sep);
      SplitJoin(parts[1..], sep);
      assert parts[0] + [sep] + tail == parts[0] + ([sep] + tail);
      SplitAfterPiece(parts[0], [sep] + tail, sep);
      assert ([sep] + tail)[1..] == tail;
      assert Split([sep] + tail, sep) == [""] + parts[1..];
      assert parts[0] + "" == parts[0];
      assert parts == [parts[0]] + parts[1..];
    }
  }
}

=== FILE: js_values.dfy ===
/** JavaScript values that cross the boundary of the core: thrown values, parsed JSON, the model call's outcome. */
module JsValues {
  import opened Wrappers

  /** What a `catch` clause receives: an `Error` (with its `message`) or any other thrown value. */
  datatype Thrown = ErrorThrown(message: string) | OtherThrown

  /**
   * What `JSON.parse` can produce. An object is the map from its keys to their values
   * (a repeated key keeps its last value, so the map is what the program sees).
   */
  datatype Json =
    | JNull
    | JBool(b: bool)
    | JNumber(n: real)
    | JString(s: string)
    | JArray(items: seq<Json>)
    | JObject(fields: map<string, Json>)

  /**
   * The outcome of the one request to the hosted language model: the reply text, or the
   * value the client library threw. The request itself is outside the model.
   */
  datatype GatewayOutcome = Replied(text: string) | Threw(thrown: Thrown)

  /** JavaScript truthiness of a `string | undefined | null`: present and not empty. */
  predicate Truthy(s: Option<string>) {
    s.Some? && s.value != ""
  }
}

=== FILE: wrappers.dfy ===
/** Optional values and results with an error, as the two apps use `undefined`/`null` and exceptions. */
module Wrappers {

  /** A value that may be absent (`undefined`, `null` or `NaN` in the source). */
  datatype Option<+T> = None | Some(value: T)

  /** The outcome of an operation that either returns a value or throws. */
  datatype Result<+R, +E> = Success(value: R) | Failure(error: E)
}
